=== FILE: README.md ===
# koh-editor topology editor core, in Dafny

This project models the core of koh-editor. koh-editor is a browser editor for diagram topologies. A topology is a sequence
of points plus a sequence of objects (positions and arcs) that refer to points by index. The model covers:

- the topology edit operations: placing a position, starting an arc, and adding a point to an arc.
  Adding a point snaps to the first existing point closer than 10 units, otherwise it appends one;
- the two history engines: the snapshot stack with `push`/`undo`/`redo`, and the commit-index
  history that records tracked-store writes into a pending slot;
- the four tool strategies (hand, position, arc, select) and the editor that dispatches pointer,
  key and wheel events to them;
- the newer shapes storage (`addPosition`, `addPolyline`);
- the renderer's viewport transform and culling, with canvas calls modelled as a command list;
- the observer list, and the `clamp`/`distance` helpers;
- the sharing between the stores and the stored versions that the history's restore creates, as
  written, next to the copying restore the rest of the model uses.

Everything is immutable data with pure functions, plus two methods, one of them with a loop (`addPolyline`).

Conventions:

- Coordinates, zoom and scale are integers.
- A distance test `distance(a, b) < r` is compared on squares: `Distance2(a, b) < r * r`.
- A handler that throws a TypeError in JavaScript returns a `Step`/`Outcome` with `failed` set. Its
  state keeps the store writes made before the throw, as the browser would.
- The editor's two tracked stores (points, objects) and the history that records them form one state
  (`State.AppState`). In the source, `src/lib/actions.ts` writes the stores of
  `src/lib/store.ts` while the tools read those of `src/lib/state.ts`; the model unifies them.
- `src/lib/editor.ts` is an older one-file copy of the strategies and the editor, with the same
  logic. Some rows below cite it instead of the newer files.

Where the source and its description disagree, the model follows the code:

- `redo` stops one short of the last commit (`index < stack.length - 1`), so it can never bring back
  the most recent undone step. This is kept as written; see `CommitHistory.RedoNeverRestoresLatest`.
- A commit with no pending slot extends the stack by a hole.

Two helpers that the source imports are not among its files. The model takes them as parameters:

- `deleteObject` is a topology transformer `del`, assumed to write both stores, points first.
- `isCloseToPolyline` is a predicate `near`.

## Model

| member | source | states |
|---|---|---|
| `Utils.Clamp` | src/lib/utils.ts:3-5 | the result lies in [min, max] when min <= max; it is the value itself inside the range, min below it, max above it, and max whenever min > max |
| `Utils.ClampIdempotent` | src/lib/utils.ts:4 | clamping a clamped value changes nothing |
| `Utils.Distance2` | src/lib/utils.ts:7-9 | the squared distance is never negative and is zero exactly for identical points |
| `Utils.DistanceSymmetric` | src/lib/utils.ts:8 | distance does not depend on argument order |
| `Utils.Sign` | src/lib/editor/editor.ts:28 | `Math.sign` gives 1, -1 or 0 by the sign of the delta |
| `Utils.FindIndex` | src/lib/actions.ts:69-71 | `findIndex` returns the lowest index satisfying the test, or -1 exactly when no element does |
| `Utils.Search` | src/lib/editor/tools/select.ts:19-29 | a search whose callback may throw stops at the first hit or the first throw; every earlier element answered false; a miss means every element answered false |
| `Types.Lookup` | src/lib/editor/tools/select.ts:20 | `points[i]` is defined exactly for an index inside the sequence, and then is that point |
| `Actions.At` | src/lib/actions.ts:63 | `at(i)` finds an element exactly for -length <= i < length, counting negative indices from the end |
| `Actions.FindNear` | src/lib/actions.ts:69-71 | the snap search yields the lowest-index point closer than 10, or -1 when none is |
| `Actions.ResolvePoint` | src/lib/actions.ts:69-76 | a click resolves to the first point within the snap radius with the points unchanged, or else to index old length with the click appended |
| `Actions.ResolveReuses` | src/lib/actions.ts:69-71 | conversely, when `j` is the first point within range, resolution reuses `j` |
| `Actions.ResolveAppends` | src/lib/actions.ts:73-76 | conversely, when no point is in range, resolution appends at the old length |
| `Actions.ResolveOnFirst` | src/lib/actions.ts:69-71 | a click exactly on the first point reuses index 0 |
| `Actions.NewPosition` | src/lib/actions.ts:43-52 | the point is appended at index old length, one position object referring to exactly that index is appended, everything earlier is kept, and validity of all indices is preserved |
| `Actions.NewArc` | src/lib/actions.ts:54-57 | the editing element becomes the old object count, where an empty arc is appended; points unchanged, validity preserved |
| `Actions.NewArcPoint` | src/lib/actions.ts:59-82 | an index for which `at` finds nothing changes nothing; otherwise only the target arc changes, by exactly the resolved index appended, existing points are kept, and validity is preserved |
| `Actions.NewArcPointAppendsOne` | src/lib/actions.ts:78 | the target arc grows by one index, keeps its earlier ones, and ends with the reused point or with the old point count when the click was appended |
| `SnapshotHistory.Create` | src/lib/store.ts:35-42 | construction stores exactly one snapshot at index 0 with first and last both true |
| `SnapshotHistory.Refresh` | src/lib/store.ts:46-51 | the published flags are last iff index = length - 1 and first iff index = 0 |
| `SnapshotHistory.Push` | src/lib/store.ts:53-59 | push keeps entries 0..index, drops the rest, appends the snapshot and moves onto it, so last holds and the invariant is kept |
| `SnapshotHistory.Undo` | src/lib/store.ts:65-69 | undo moves to max(0, index - 1), applies the snapshot there, and never changes the stack |
| `SnapshotHistory.Redo` | src/lib/store.ts:71-75 | redo moves to min(length - 1, index + 1), applies the snapshot there, and never changes the stack |
| `SnapshotHistory.Reversible` | src/lib/store.ts:89-93 | a reversible edit runs the edit and performs exactly one push of its result |
| `SnapshotHistory.UndoThenRedo` | src/lib/store.ts:65-75 | from index > 0, undo then redo returns to the same index and snapshot |
| `SnapshotHistory.PushThenUndo` | src/lib/store.ts:53-69 | undo right after a push re-applies the snapshot that was current before it |
| `SnapshotHistory.PushAfterUndoDropsRedo` | src/lib/store.ts:56-57 | a push after an undo discards the undone entry, so redo stays on the new snapshot |
| `CommitHistory.Create` | src/lib/history.ts:25-29 | construction stores one snapshot of all tracked stores with index 1, and neither undo nor redo is offered |
| `CommitHistory.Record` | src/lib/history.ts:31-43 | a tracked write puts the value into the pending slot, creating a slot of holes when absent; index, flags and every other slot are unchanged; untracked writes change nothing |
| `CommitHistory.RecordFilled` | src/lib/history.ts:35-39 | the corrected write: a missing pending slot starts from the current values of all stores instead of holes |
| `CommitHistory.RecordKeepsInv` | src/lib/history.ts:45-50 | a tracked write keeps 1 <= index <= length and the flags canUndo iff index > 1, canRedo iff index < length - 1 |
| `CommitHistory.Commit` | src/lib/history.ts:71-76 | commit moves the pending slot under the index, increments the index, truncates the stack to the new index, and keeps earlier slots |
| `CommitHistory.ApplyVersion` | src/lib/history.ts:57-69 | restoring applies `stack[index - 1]`, nothing when that slot is missing, and records nothing: the history is left as it was, tracking on |
| `CommitHistory.Undo` | src/lib/history.ts:78-82 | undo decrements only when index > 1, restores the slot under the index, keeps the stack and the invariant |
| `CommitHistory.Redo` | src/lib/history.ts:84-88 | redo increments only when index < length - 1, restores the slot under the index, keeps the stack and the invariant |
| `CommitHistory.RedoNeverRestoresLatest` | src/lib/history.ts:85 | from below the end of the stack, redo never restores the last stored slot |
| `CommitHistory.CommitUndoRedoIsStuck` | src/lib/history.ts:71-88 | right after a commit and one undo, redo leaves the index unchanged |
| `CommitHistory.UndoRestoresUndefined` | src/lib/history.ts:35-39 | as written, a step that wrote one store and a later commit make undo restore that slot with the other store undefined |
| `CommitHistory.RecordFilledKeepsComplete` | src/lib/history.ts:31-43 | with the corrected write, every slot holds a value for every store |
| `CommitHistory.CommitKeepsComplete` | src/lib/history.ts:71-76 | commit keeps every stored slot complete |
| `CommitHistory.CompleteRestoresEveryStore` | src/lib/history.ts:78-88 | from a complete history, undo and redo restore a value for every store |
| `State.Init` | src/lib/state.ts:6-23 | start-up: empty topology, zoom 1, nothing selected, history of one snapshot in sync with the topology |
| `State.Record` | src/lib/history.ts:35-39 | the editor's tracked write keeps every slot restorable to a points value and an objects value |
| `State.WritePoints` | src/lib/history.ts:31-43 | setting the points changes only the points and records them in the pending slot; with the corrected slot creation of the Findings, a new slot takes the current objects |
| `State.WriteObjects` | src/lib/history.ts:31-43 | setting the objects changes only the objects and records them in the pending slot; with the corrected slot creation of the Findings, a new slot takes the current points |
| `State.WriteTopology` | src/lib/actions.ts:47-51 | an edit writing points then objects leaves the pending slot equal to a snapshot of the new topology |
| `State.Delete` | src/lib/editor/tools/select.ts:75 | deleting writes the transformed topology and changes nothing else, index included |
| `State.Commit` | src/lib/editor/tools/position.ts:11 | the editor's commit changes only the history: pending slot under the index, index + 1 |
| `State.Restore` | src/lib/history.ts:64-66 | a missing version leaves the topology; a present one sets both stores from it exactly |
| `State.Undo` | src/lib/editor/editor.ts:72 | undo from the editor: index back unless 1, topology restored from the slot now under it, stack unchanged |
| `State.Redo` | src/lib/editor/editor.ts:71 | redo from the editor: index forward only below length - 1, topology restored, stack unchanged |
| `State.SnapshotInjective` | src/lib/history.ts:64-66 | two topologies with the same snapshot are equal, so a restore is exact |
| `State.StepThenUndo` | src/lib/history.ts:71-82 | from a restore point, any step that keeps the versions below the index and commits once is undone exactly by one undo |
| `State.PointsEditCommitUndo` | src/lib/editor/tools/select.ts:39-53 | from a synchronised state, a points-only write, a commit and an undo give back the earlier topology |
| `State.EditCommitUndo` | src/lib/history.ts:71-82 | from a synchronised state, an edit, a commit and an undo give back the earlier topology, and redo cannot bring the edit back |
| `HandStrategy.MouseMove` | src/lib/editor/tools/hand.ts:12-27 | moving records the cursor; under the grab cursor the viewport is unchanged, otherwise x and y shift by the movement and width/height stay; topology and history untouched |
| `HandStrategy.MouseDown` | src/lib/editor/tools/hand.ts:29-34 | pressing only sets the grabbing cursor |
| `HandStrategy.MouseUp` | src/lib/editor/tools/hand.ts:36-41 | releasing only sets the grab cursor |
| `HandStrategy.DragPansBySum` | src/lib/editor.ts:44-73 | press, two moves and release pan by the summed movement, end on the grab cursor, and further moves no longer pan |
| `PositionStrategy.MouseUp` | src/lib/editor/tools/position.ts:9-12 | releasing appends the cursor as a new point and a position referring to it, keeps everything existing, commits exactly once a snapshot of the new topology, and preserves validity |
| `PositionStrategy.PlaceThenUndo` | src/lib/editor/tools/position.ts:9-11 | from a synchronised state, placing then undoing gives back the earlier topology |
| `PositionStrategy.PlaceOnEmptyThenUndo` | src/lib/editor.ts:111-116 | on the empty start state a click at (10,10) gives one point and one position; undo empties the topology again |
| `ArcStrategy.ArcPoint` | src/lib/editor/tools/arc.ts:25 | adding the arc point through the stores yields exactly `newArcPoint`'s topology without moving the history index |
| `ArcStrategy.MouseUp` | src/lib/editor/tools/arc.ts:14-36 | a release fails exactly when the arc in progress no longer exists, and then the topology is what `newArcPoint` left (unchanged for a non-negative index, since `at` misses); otherwise it starts an empty arc when none is in progress, appends exactly one resolved index, keeps other objects, commits once, lets go of the arc exactly when it has more than 2 indices and its first equals its last, and preserves validity |
| `ArcStrategy.ReleaseThenUndo` | src/lib/editor/tools/arc.ts:14-36 | from any restore point, also right after an undo, a successful release is undone exactly by one undo (with the copying restore) |
| `ArcStrategy.KeyDown` | src/lib/editor/tools/arc.ts:38-45 | Escape deletes the object in progress and clears the index without a commit; any other key changes nothing |
| `ArcStrategy.EscapeThenRelease` | src/lib/editor.ts:101-108 | after Escape the next release starts a new arc at the end of the remaining objects |
| `ArcStrategy.ClickStep` | src/lib/editor/tools/arc.ts:17-25 | one release on a known one-arc topology appends the resolved index and keeps or lets go of the arc by the closing rule |
| `ArcStrategy.Releases` | src/lib/editor.ts:79-99 | a series of releases never moves cursor, viewport, zoom or selection, and without failures commits one step per release |
| `ArcStrategy.LastRelease` | src/lib/editor/tools/arc.ts:27-33 | returning to the first point of a two-index arc closes it as [0, 1, 0] |
| `ArcStrategy.LastTwoReleases` | src/lib/editor/tools/arc.ts:25-35 | a far click then a return to the first point closes the arc |
| `ArcStrategy.ThreeClicksClose` | src/lib/editor/tools/arc.ts:14-36 | on an empty topology, clicks a, b, a with b out of snap range give points [a, b], the arc [0, 1, 0], a closed arc and three commits |
| `ArcStrategy.ClicksAtOriginAndTen` | src/lib/actions.ts:69-76 | clicks at (0,0), (10,0), (0,0) give the arc [0, 1, 0] and close it; distance exactly 10 does not snap |
| `SelectStrategy.Coords` | src/lib/editor/tools/select.ts:20 | an object's coordinates are its indices looked up in the points, undefined where an index is bad |
| `SelectStrategy.Hit` | src/lib/editor/tools/select.ts:22-28 | a position is hit within distance < 5 of its first point and throws when that point is undefined; an arc is hit per the polyline test |
| `SelectStrategy.MouseMove` | src/lib/editor/tools/select.ts:16-45 | hovered becomes the first hit object or -1, with no object hit before it; the cursor is pointer iff something is hovered; during a drag only points[dragging] moves to the cursor, objects unchanged, no commit |
| `SelectStrategy.MouseUp` | src/lib/editor/tools/select.ts:47-54 | releasing selects the hovered object; it commits once and resets dragging only when a drag was active |
| `SelectStrategy.Grabs` | src/lib/editor/tools/select.ts:63 | the grab test throws for an index naming no point, and otherwise is distance < 10 |
| `SelectStrategy.MouseDown` | src/lib/editor/tools/select.ts:56-68 | with a selection and no drag, dragging becomes the first index of the selected object whose point is within 10, or -1; failures exactly when the selection or an earlier index is bad; otherwise nothing changes |
| `SelectStrategy.KeyDown` | src/lib/editor/tools/select.ts:70-80 | Delete/Backspace with a selection deletes it and commits once, keeping `selected`; other keys or no selection change nothing |
| `SelectStrategy.HoverNeverThrowsOnValid` | src/lib/editor.ts:122-133 | in a valid topology where every position has a point the hover test never throws |
| `SelectStrategy.DragThenUndo` | src/lib/editor.ts:143-158 | a drag move and release move exactly the dragged point and commit once; undo puts the point back |
| `SelectStrategy.PressOnFirstPointStartsDrag` | src/lib/editor.ts:160-171 | pressing exactly on the selected object's first point starts dragging that point |
| `SelectStrategy.DeleteThenUndo` | src/lib/editor.ts:173-183 | deleting the selection then undoing gives back the earlier topology |
| `Editor.Init` | src/lib/state.ts:6 | the editor starts at zoom 1 with its history in sync |
| `Editor.NextZoom` | src/lib/editor/editor.ts:27-30 | the new zoom lies in [1, 8]; inside the range a positive delta adds 1, a negative one subtracts 1, zero keeps it |
| `Editor.OnWheel` | src/lib/editor/editor.ts:24-41 | after a wheel event the zoom is the clamped step in [1, 8] and the viewport origin is cursor - cursor * zoom, so the cursor's scene point is drawn at device position cursor whatever the origin was; width, height and everything else are unchanged |
| `Editor.WheelKeepsCursorPointIff` | src/lib/editor/editor.ts:32-40 | the cursor's scene point keeps its device position across a wheel event iff it was drawn at its own coordinates before, so a pan is discarded |
| `Editor.WheelInThenOut` | src/lib/editor.ts:194-209 | zooming in then out inside the bounds restores the zoom and re-centres the viewport on the cursor |
| `Editor.HistoryKey` | src/lib/editor.ts:237-241 | meta+shift+z redoes only, meta+z without shift undoes only, any other key does neither |
| `Editor.OnKeyDown` | src/lib/editor/editor.ts:69-76 | history keys are handled first and the event always reaches the strategy: for the arc and select tools the outcome is exactly their `keyDown` on the state after the history key (Escape deletes the arc, Delete/Backspace deletes the selection and commits), nothing else changes; tools without `keyDown` see only the history effect |
| `Editor.OnMouseDown` | src/lib/editor/editor.ts:43-45 | the outcome is exactly the hand strategy's press, or the select strategy's press at the stored cursor position; position and arc tools change nothing |
| `Editor.OnMouseUp` | src/lib/editor/editor.ts:47-49 | the outcome is exactly the active strategy's `mouseUp`, the position and arc tools receiving the stored cursor position |
| `Editor.OnMouseMove` | src/lib/editor/editor.ts:51-67 | the cursor position is stored first; the outcome is then exactly the hand or select strategy's move with that position; position and arc tools only store it; no move commits |
| `Editor.Dispatch` | src/lib/editor/editor.ts:24-76 | only a wheel event changes the zoom, and it keeps it in [1, 8] |
| `Editor.Run` | src/lib/editor/editor.ts:27-30 | over any run of events, including failing ones, the tool stays and a zoom in [1, 8] stays there |
| `Editor.PlaceThenUndoKey` | src/lib/editor/editor.ts:47-76 | with the position tool, a move, a release and meta+z place a position at the cursor and then give back the earlier topology |
| `Aliasing.Undo` | src/lib/history.ts:61-82 | undo as written: the copying undo's values, and the stores now share every part of the restored version, which they mirror |
| `Aliasing.Redo` | src/lib/history.ts:84-88 | redo as written, with the sharing of the restore in lines 61-69 |
| `Aliasing.ArcRelease` | src/lib/editor/tools/arc.ts:18-25 | the arc release's values; while the version is still on the stack, the `objects.push` and `arc.points.push` also land in the shared version (its objects become the live objects when the array is shared), an appended point ends the sharing of the points array, and no other version changes; otherwise the sharing ends |
| `Aliasing.PositionRelease` | src/lib/actions.ts:43-52 | the position release's values; its spread updates end the sharing of both arrays, keeping only the shared object records, and the sharing ends when the version is gone |
| `Aliasing.SelectMove` | src/lib/editor/tools/select.ts:39-44 | the select move's values and sharing; a drag's in-place assignment puts the dragged point into the shared version's points, and no other version changes |
| `Aliasing.StepMirrors` | src/lib/history.ts:64-66 | a step that keeps the lower versions and does not shrink the objects keeps every shared part equal to the live value |
| `Aliasing.ArcReleaseMirrors` | src/lib/editor/tools/arc.ts:18-25 | after an arc release the shared version still equals the live stores in every shared part |
| `Aliasing.PositionReleaseMirrors` | src/lib/actions.ts:47-51 | after a position release the shared version still equals the live stores in every shared part |
| `Aliasing.SelectMoveMirrors` | src/lib/editor/tools/select.ts:40-43 | after a select move, drag included, the shared version still equals the live stores in every shared part |
| `Aliasing.UndoKeepsSharedArcEdit` | src/lib/editor/tools/arc.ts:14-36 | while the objects array is shared with the version undo returns to, undo after a release keeps the release's objects |
| `Aliasing.UndoAfterSharedArcClick` | src/lib/history.ts:64-66 | undo at start-up, an arc click at (0,0) and undo give no points and the arc [0], an invalid topology |
| `Aliasing.CopyingRestoreUndoesArcClick` | src/lib/history.ts:64-66 | with the copying restore the same events end on the empty topology |
| `ShapeStorage.Empty` | src/logic/shapes.ts:23-26 | storage starts with no points and no objects |
| `ShapeStorage.Span` | src/logic/shapes.ts:40-42 | the collected push positions are the consecutive indices from the old point count |
| `ShapeStorage.AddPosition` | src/logic/shapes.ts:28-36 | one point appended and one circle referring to the old point count; existing entries kept; validity preserved |
| `ShapeStorage.AddPolyline` | src/logic/shapes.ts:38-48 | every input point appended in order and one polyline referring to old count .. old count + n - 1 |
| `ShapeStorage.PolylineIsFresh` | src/logic/shapes.ts:40-42 | a new polyline's indices are referenced by no earlier shape, and validity is preserved |
| `ShapeStorage.AddTwoPolylines` | src/logic/shapes.ts:29-47 | two successive polylines get disjoint consecutive ranges, and validity is preserved |
| `Renderer.ToViewportInverse` | src/shapes/renderer.ts:23-30 | at a positive scale the transform loses nothing (dividing back gives the scene point) and the view position maps to the origin |
| `Renderer.RenderPosition` | src/shapes/renderer.ts:39-49 | exactly one circle of diameter 5 at the transformed point iff the point is in the viewport, with the options unchanged |
| `Renderer.AnyInViewport` | src/shapes/renderer.ts:54 | `some` holds iff some point is in the viewport |
| `Renderer.MapToViewport` | src/shapes/renderer.ts:55 | every point transformed, in order |
| `Renderer.RenderPolyline` | src/shapes/renderer.ts:51-56 | one linear path of all transformed points, in order, iff some point is in the viewport; options unchanged |
| `Renderer.Render` | src/shapes/renderer.ts:32-37 | positions and polylines go to their renderers, any other shape draws nothing, and every command carries the shape's options |
| `Renderer.PolylineDrawnIffSomePositionDrawn` | src/shapes/renderer.ts:11-21 | a polyline is drawn iff one of its points would be drawn as a position |
| `Observable.Subscribe` | src/utils/observable.ts:6-8 | the observer is appended at the end, duplicates allowed |
| `Observable.Remove` | src/utils/observable.ts:11 | filtering drops every occurrence of the observer and keeps every other one with its multiplicity; an absent observer leaves the list as it was |
| `Observable.Unsubscribe` | src/utils/observable.ts:10-12 | afterwards the observer is absent and every other observer remains; unsubscribing an absent observer changes nothing |
| `Observable.Notify` | src/utils/observable.ts:14-16 | every observer is called once per occurrence, in list order, with the same data |
| `Observable.RemoveAppend` | src/utils/observable.ts:10-12 | removal works piecewise over concatenation, so the remaining observers keep their relative order |
| `Observable.UnsubscribeIdempotent` | src/utils/observable.ts:12 | unsubscribing twice equals unsubscribing once |
| `Observable.SubscribeThenUnsubscribe` | src/utils/observable.ts:6-12 | subscribing a fresh observer then unsubscribing it restores the original list |
| `Observable.NotifyAfterUnsubscribe` | src/utils/observable.ts:14-16 | after unsubscribing, notify reaches only earlier observers other than the removed one |

## Left out

- `distortEdges` (src/lib/actions.ts:8-41) is not modelled. It depends on random jitter and chunking
  helpers that are not part of this model.
- `deleteObject`, `isCloseToPolyline`, `createPoint`, `toScene`, `roundPoint`, `multiply`, `divide`
  and `subtract` are not part of this model. `deleteObject` is the parameter `del`, and
  `isCloseToPolyline` is the parameter `near`.
- Device-to-scene conversion of the pointer position in `onMouseMove` is not modelled. The
  `MouseMove` event carries the scene position that the conversion would produce.
- Floating point is not modelled: `Math.hypot` becomes squared integer distance, and zoom and
  renderer scale are integers. `Editor.NextZoom` does not model `toPrecision(2)`, which leaves every
  integer from 0 to 9 unchanged, and those are the only zooms that occur.
- Svelte store plumbing is not modelled: `writable`, `derived`, `subscribeIgnoreFirst`, the `disposers`
  set and `exportLink`. A store write is an explicit record call gated by the `tracking` flag.
- Tool switching is not modelled. The `activeTool` subscription sets the cursor type, and its table
  of cursors per tool is not in the source, so the active tool stays fixed over a run.
- DOM events are reduced to their read fields, and cursor CSS strings to an enumeration.
- Exceptions thrown by observers during `notify` are not modelled.
- Object identity is modelled only as far as the history's restore creates sharing (module
  `Aliasing`). Elsewhere stores, versions and clones are values.
- `SnapshotHistory.Undo`: `changes.apply` (src/lib/store.ts:83-86) also sets the stores to the
  snapshot's own arrays, so a later in-place `arc.points.push` (src/lib/actions.ts:78) would alter
  the stored snapshot, as in the second Findings row. The snapshot history is modelled as values:
  `SnapshotHistory.Undo`, `SnapshotHistory.Redo` and `SnapshotHistory.PushThenUndo` hold for a
  copying `apply`.
- `State.Undo`: restores a copy of the version, the corrected restore of the Findings. The sharing
  of the restore as written is modelled by `Aliasing.Undo`.
- `State.Redo`: restores a copy of the version, like `State.Undo`; the restore as written is
  `Aliasing.Redo`.
- `Aliasing.Undo`: after restoring a missing version, sharing with a version at or above the new
  index is dropped. In the source the stores can go on sharing it until a write or a commit
  replaces it.
- `Aliasing.Redo`: drops sharing in the same case as `Aliasing.Undo`.
- `Aliasing` has no delete step, because `deleteObject` is not part of this model. The hand tool,
  the history keys and the select tool's press and release do not write the stores.
- `State.WritePoints`: a new pending slot takes the objects entry from the current topology (the
  corrected slot creation of the Findings), not a hole as src/lib/history.ts:37 creates. The
  as-written engine is `CommitHistory.Record`.
- `State.WriteObjects`: a new pending slot takes the points entry from the current topology, as for
  `State.WritePoints`.
- `Actions.NewPosition`: `newPosition` creates its object without a `properties` field. The model
  gives it an empty property map, the value the arc tool writes.
- `Actions.NewArc`: `newArc` also creates its arc without a `properties` field. The model gives it
  an empty property map.
- `ShapeStorage.AddPosition`: the point is stored as given. `createPoint` (a `Uint16Array` pair,
  with possible wrap-around) is not part of this model.
- JSON import, property editing and the `ShapeStorage` interface of src/utils/storage.ts are not
  modelled, because they have no code among the files.
- `SelectStrategy.MouseMove`: JavaScript accepts a drag index outside the points array and creates
  a sparse array or a stray property. The model reports this as a failure and leaves the points
  unchanged. It can only happen after an undo or delete during a drag.
- `SelectStrategy.Hit`: the polyline test `near` never throws. The real `isCloseToPolyline` may throw
  on an undefined coordinate.
- `ShapeStorage.AddPolyline`: points are stored as given. `createPoint` (a `Uint16Array` pair, with
  possible wrap-around) is not part of this model.
- `State.Record`: the editor state uses the corrected slot creation (see Findings). The as-written
  engine is `CommitHistory.Record`.

## Findings

| source | as written | input that shows it | evidently intended | confidence | as-written member | corrected member |
|---|---|---|---|---|---|---|
| src/lib/history.ts:35-39 | a missing pending slot is created as `new Array(n)`, so a step that changes only some tracked stores commits a slot with holes; undoing to it sets the other stores to `undefined` | stores holding 10 and 20; write 11 to store 0 and commit; write 12 and 22 and commit; undo restores `[11, undefined]`. In the editor: an arc release that snaps to an existing point writes only the objects | a new slot starts from the current values of all tracked stores, so every restore sets every store to a value | not executed | `CommitHistory.UndoRestoresUndefined` | `CommitHistory.RecordFilledKeepsComplete` |
| src/lib/history.ts:64-66 | `applyVersion` sets each store to the array held in the version itself, with no copy. A later in-place edit changes the stored version too: `objects.push` (src/lib/editor/tools/arc.ts:18-21), `arc.points.push` (src/lib/actions.ts:78), or a drag's `points[dragging] = cursor` (src/lib/editor/tools/select.ts:40-43). Undo to that version then no longer restores the earlier state | meta+z at start-up, one arc-tool click at (0,0), meta+z: no points, and the objects `[arc [0]]`, whose index names no point | the stores receive copies, as recording already makes with `structuredClone`, so undo gives back exactly the earlier topology | not executed | `Aliasing.UndoAfterSharedArcClick` | `ArcStrategy.ReleaseThenUndo` |

=== FILE: actions.dfy ===
/** The topology edit operations: placing a position, starting an arc, and adding a point to
    an arc with the snap-or-append point resolution. */
module Actions {
  import opened Types
  import opened Utils

  /** A click closer than this to an existing point reuses that point. */
  const SnapRadius: nat := 10

  /** `Array.prototype.at(i)` on a sequence of length `|s|`: the element index it reads,
      counting negative `i` from the end, or `undefined` outside `-|s| .. |s|-1`. */
  function At<T>(s: seq<T>, i: int): (r: Option<nat>)
    ensures r.Some? <==> -|s| <= i < |s|
    ensures r.Some? ==> r.value < |s| && (r.value == i || r.value == |s| + i)
  {
    if 0 <= i < |s| then Some(i)
    else if -|s| <= i < 0 then Some(|s| + i)
    else None
  }

  /** The first existing point within the snap radius of `p`, or -1. */
  function FindNear(points: seq<Point>, p: Point): (r: int)
    ensures -1 <= r < |points|
    ensures r == -1 ==> forall m :: 0 <= m < |points| ==> !Within(points[m], p, SnapRadius)
    ensures r >= 0 ==> Within(points[r], p, SnapRadius)
                       && forall m :: 0 <= m < r ==> !Within(points[m], p, SnapRadius)
  {
    FindIndex(points, (q: Point) => Within(q, p, SnapRadius))
  }

  /** Resolves a click to a point index: the lowest-index point within the snap radius,
      otherwise a new point appended at index `|points|`. Returns the index and the new points. */
  function ResolvePoint(points: seq<Point>, p: Point): (r: (nat, seq<Point>))
    ensures r.0 < |r.1|
    ensures r.0 < |points| ==>
              r.1 == points && Within(points[r.0], p, SnapRadius)
              && forall m :: 0 <= m < r.0 ==> !Within(points[m], p, SnapRadius)
    ensures r.0 >= |points| ==>
              r.0 == |points| && r.1 == points + [p]
              && forall m :: 0 <= m < |points| ==> !Within(points[m], p, SnapRadius)
  {
    var near := FindNear(points, p);
    if near == -1 then (|points|, points + [p]) else (near, points)
  }

  /** `newPosition`: the point goes to the end of `points`, and a position object referring
      to exactly that new index goes to the end of `objects`. */
  function NewPosition(t: Topology, p: Point): (r: Topology)
    ensures |r.points| == |t.points| + 1 && r.points[..|t.points|] == t.points
    ensures r.points[|t.points|] == p
    ensures |r.objects| == |t.objects| + 1 && r.objects[..|t.objects|] == t.objects
    ensures r.objects[|t.objects|] == Obj(Position, [|t.points|], map[])
    ensures Valid(t) ==> Valid(r)
  {
    var insertedAt := |t.points|;
    Topology(t.points + [p], t.objects + [Obj(Position, [insertedAt], map[])])
  }

  /** `newArc`: the editing element becomes the old object count, where an empty arc is appended. */
  function NewArc(t: Topology): (r: (int, Topology))
    ensures r.0 == |t.objects|
    ensures r.1.points == t.points
    ensures |r.1.objects| == |t.objects| + 1 && r.1.objects[..|t.objects|] == t.objects
    ensures r.1.objects[r.0] == Obj(Arc, [], map[])
    ensures Valid(t) ==> Valid(r.1)
  {
    (|t.objects|, Topology(t.points, t.objects + [Obj(Arc, [], map[])]))
  }

  /** `newArcPoint`: when `at(arcIndex)` finds an object, the click is resolved to a point index
      which is pushed onto that object's index list; otherwise nothing changes. */
  function NewArcPoint(t: Topology, arcIndex: int, p: Point): (r: Topology)
    ensures At(t.objects, arcIndex).None? ==> r == t
    ensures At(t.objects, arcIndex).Some? ==>
              var k := At(t.objects, arcIndex).value;
              var (j, ps) := ResolvePoint(t.points, p);
              && r.points == ps
              && |r.objects| == |t.objects|
              && r.objects[k] == t.objects[k].(points := t.objects[k].points + [j])
              && forall o :: 0 <= o < |t.objects| && o != k ==> r.objects[o] == t.objects[o]
    ensures |t.points| <= |r.points| && r.points[..|t.points|] == t.points
    ensures Valid(t) ==> Valid(r)
  {
    match At(t.objects, arcIndex)
    case None => t
    case Some(k) =>
      var (j, ps) := ResolvePoint(t.points, p);
      var arc := t.objects[k];
      Topology(ps, t.objects[k := arc.(points := arc.points + [j])])
  }

  /** After `NewArcPoint` on an existing object, that object ends with the resolved index and
      keeps its earlier indices; the snap radius decides between reuse and append. */
  lemma NewArcPointAppendsOne(t: Topology, arcIndex: int, p: Point)
    requires At(t.objects, arcIndex).Some?
    ensures var k := At(t.objects, arcIndex).value;
            var r := NewArcPoint(t, arcIndex, p);
            var before := t.objects[k].points;
            && |r.objects[k].points| == |before| + 1
            && r.objects[k].points[..|before|] == before
            && (FindNear(t.points, p) >= 0 ==>
                  r.objects[k].points[|before|] == FindNear(t.points, p) && r.points == t.points)
            && (FindNear(t.points, p) == -1 ==>
                  r.objects[k].points[|before|] == |t.points| && r.points == t.points + [p])
  {
  }

  /** The converse of `ResolvePoint`'s contract: the first point within the snap radius is reused. */
  lemma ResolveReuses(points: seq<Point>, p: Point, j: nat)
    requires j < |points| && Within(points[j], p, SnapRadius)
    requires forall m :: 0 <= m < j ==> !Within(points[m], p, SnapRadius)
    ensures ResolvePoint(points, p) == (j, points)
  {
  }

  /** The converse of `ResolvePoint`'s contract: with no point in range the click is appended. */
  lemma ResolveAppends(points: seq<Point>, p: Point)
    requires forall m :: 0 <= m < |points| ==> !Within(points[m], p, SnapRadius)
    ensures ResolvePoint(points, p) == (|points|, points + [p])
  {
  }

  /** Clicking exactly on the first point reuses it. */
  lemma ResolveOnFirst(points: seq<Point>, p: Point)
    requires |points| > 0 && points[0] == p
    ensures ResolvePoint(points, p) == (0, points)
  {
  }
}

=== FILE: aliasing.dfy ===
/** The restore of the commit-index history as written, with the sharing it creates.

    `applyVersion` sets each tracked store to the array held in the restored version itself, with
    no clone. From then on, until a store gets a fresh array, an in-place edit of the store's value
    is also an edit of that version: the arc tool's `objects.push`, `newArcPoint`'s
    `arc.points.push`, and the select tool's `points[dragging] = cursor`. A spread update
    (`[...self, x]`) gives a fresh array whose elements are still the version's object records.
    Recording clones, so only a restore creates sharing.

    `State.Undo` and `State.Redo` restore a copy instead; this module puts the sharing on top of
    them and shows what it does to undo. */
module Aliasing {
  import opened Types
  import opened State
  import CommitHistory
  import Actions
  import ArcStrategy
  import PositionStrategy
  import SelectStrategy

  /** What the live store values share with version `slot` of the stack: the points array, the
      objects array, and (`elements`) the object records at the version's own indices. */
  datatype Sharing = Sharing(slot: nat, points: bool, objects: bool, elements: bool)

  /** The application state together with the sharing left by the last restore. */
  datatype Shared = Shared(app: AppState, sharing: Option<Sharing>)

  /** A handler's result in this model: the new state, the tool's own state, and whether it threw. */
  datatype SharedStep<L> = SharedStep(state: Shared, tool: L, failed: bool)

  /** Version `slot` still exists in the stack. */
  predicate Present(h: Tracked, slot: nat) {
    slot < |h.stack| && h.stack[slot].Some?
  }

  /** The points array of a present version. */
  function SlotPoints(h: Tracked, slot: nat): seq<Point>
    requires Present(h, slot)
  {
    h.stack[slot].value[PointsStore].value.points
  }

  /** The objects array of a present version. */
  function SlotObjects(h: Tracked, slot: nat): seq<Obj>
    requires Present(h, slot)
  {
    h.stack[slot].value[ObjectsStore].value.objects
  }

  /** What sharing means for the values: every shared part of the live stores equals the version
      it is shared with, and the shared object records are a prefix of the live objects. */
  predicate Mirrors(s: Shared) {
    s.sharing.Some? ==>
      var sh := s.sharing.value;
      && sh.slot < s.app.history.index
      && Present(s.app.history, sh.slot)
      && (sh.points ==> SlotPoints(s.app.history, sh.slot) == s.app.topology.points)
      && (sh.objects ==> SlotObjects(s.app.history, sh.slot) == s.app.topology.objects)
      && (sh.elements ==> SlotObjects(s.app.history, sh.slot) <= s.app.topology.objects)
  }

  /** An in-place write into store `storeIdx` of version `slot`; nothing when the version is gone. */
  function WriteSlot(h: Tracked, slot: nat, storeIdx: nat, v: StoreValue): (r: Tracked)
    requires storeIdx < 2
    requires storeIdx == PointsStore ==> v.PointsValue?
    requires storeIdx == ObjectsStore ==> v.ObjectsValue?
    ensures r.index == h.index && |r.stack| == |h.stack|
    ensures forall i :: 0 <= i < |h.stack| && i != slot ==> r.stack[i] == h.stack[i]
    ensures Present(h, slot) ==> r.stack[slot] == Some(h.stack[slot].value[storeIdx := Some(v)])
    ensures !Present(h, slot) ==> r == h
  {
    if Present(h, slot) then
      var r := h.(stack := h.stack[slot := Some(h.stack[slot].value[storeIdx := Some(v)])]);
      assert CommitHistory.Inv(r);
      r
    else h
  }

  /** The stores were edited in place: the versions' shared parts follow the live values (the
      whole objects array when it is shared, otherwise the shared object records). */
  function EditedInPlace(s: Shared): (r: Shared)
    ensures r.app == s.app.(history := r.app.history) && r.sharing == s.sharing
    ensures r.app.history.index == s.app.history.index && |r.app.history.stack| == |s.app.history.stack|
    ensures forall i :: 0 <= i < |s.app.history.stack| && (s.sharing.None? || i != s.sharing.value.slot) ==>
              r.app.history.stack[i] == s.app.history.stack[i]
    ensures s.sharing.Some? && Present(s.app.history, s.sharing.value.slot) ==>
              var sh := s.sharing.value;
              && Present(r.app.history, sh.slot)
              && (sh.points ==> SlotPoints(r.app.history, sh.slot) == s.app.topology.points)
              && (!sh.points ==> SlotPoints(r.app.history, sh.slot) == SlotPoints(s.app.history, sh.slot))
              && (sh.objects ==> SlotObjects(r.app.history, sh.slot) == s.app.topology.objects)
              && (!sh.objects && !sh.elements ==>
                    SlotObjects(r.app.history, sh.slot) == SlotObjects(s.app.history, sh.slot))
  {
    match s.sharing
    case None => s
    case Some(sh) =>
      var h := s.app.history;
      if !Present(h, sh.slot) then s
      else
        var live := s.app.topology;
        var objs := SlotObjects(h, sh.slot);
        var h1 := if sh.points then WriteSlot(h, sh.slot, PointsStore, PointsValue(live.points)) else h;
        var h2 := if sh.objects then WriteSlot(h1, sh.slot, ObjectsStore, ObjectsValue(live.objects))
                  else if sh.elements && |objs| <= |live.objects|
                  then WriteSlot(h1, sh.slot, ObjectsStore, ObjectsValue(live.objects[..|objs|]))
                  else h1;
        s.(app := s.app.(history := h2))
  }

  /** Stores that received a fresh array no longer share it; a version that a commit cut off the
      stack is shared no more. A fresh objects array keeps its elements. */
  function Replaced(s: Shared, points: bool, objects: bool): (r: Shared)
    ensures r.app == s.app
    ensures s.sharing.None? || !Present(s.app.history, s.sharing.value.slot) ==> r.sharing == None
    ensures s.sharing.Some? && Present(s.app.history, s.sharing.value.slot) ==>
              var sh := s.sharing.value;
              r.sharing == Some(sh.(points := sh.points && !points, objects := sh.objects && !objects))
  {
    match s.sharing
    case None => s
    case Some(sh) =>
      if !Present(s.app.history, sh.slot) then s.(sharing := None)
      else s.(sharing := Some(sh.(points := sh.points && !points, objects := sh.objects && !objects)))
  }

  /** `undo` as written: the index steps back and each store is set to the very array of the
      restored version. A missing version sets nothing, and the stores keep what they shared as
      long as that version is still below the index. */
  /** The sharing after a restore that gave `app`: the stores share the restored version when it
      exists; otherwise they keep what they shared, as long as that version is below the index. */
  function AfterRestore(s: Shared, app: AppState): (r: Shared)
    ensures r.app == app
    ensures Present(app.history, app.history.index - 1) ==>
              r.sharing == Some(Sharing(app.history.index - 1, true, true, true))
  {
    var k := app.history.index - 1;
    var kept := if s.sharing.Some? && s.sharing.value.slot < app.history.index then s.sharing else None;
    Shared(app, if Present(app.history, k) then Some(Sharing(k, true, true, true)) else kept)
  }

  function Undo(s: Shared): (r: Shared)
    ensures r.app == State.Undo(s.app)
    ensures Present(r.app.history, r.app.history.index - 1) ==>
              r.sharing == Some(Sharing(r.app.history.index - 1, true, true, true))
    ensures Mirrors(s) || Present(r.app.history, r.app.history.index - 1) ==> Mirrors(r)
  {
    AfterRestore(s, State.Undo(s.app))
  }

  /** `redo` as written, with the same sharing as `undo`. */
  function Redo(s: Shared): (r: Shared)
    ensures r.app == State.Redo(s.app)
    ensures Present(r.app.history, r.app.history.index - 1) ==>
              r.sharing == Some(Sharing(r.app.history.index - 1, true, true, true))
    ensures Mirrors(s) || Present(r.app.history, r.app.history.index - 1) ==> Mirrors(r)
  {
    AfterRestore(s, State.Redo(s.app))
  }

  /** After an in-place edit every shared part mirrors the live values again, provided the shared
      version is still below the index and the live objects did not shrink under it. */
  lemma EditedMirrors(s: Shared)
    requires s.sharing.Some? ==>
               && s.sharing.value.slot < s.app.history.index
               && Present(s.app.history, s.sharing.value.slot)
               && (s.sharing.value.elements ==>
                     |SlotObjects(s.app.history, s.sharing.value.slot)| <= |s.app.topology.objects|)
    ensures Mirrors(EditedInPlace(s))
  {
  }

  /** The arc tool's release as written: the array push that starts an arc and the index push
      into the arc are in place, the points update is a spread. */
  function ArcRelease(s: Shared, arc: ArcStrategy.ArcState, cursor: Point)
    : (r: SharedStep<ArcStrategy.ArcState>)
    ensures var v := ArcStrategy.MouseUp(s.app, arc, cursor);
            && r.tool == v.tool && r.failed == v.failed
            && r.state.app == v.app.(history := r.state.app.history)
            && r.state.app.history.index == v.app.history.index
    ensures var v := ArcStrategy.MouseUp(s.app, arc, cursor);
            s.sharing.None? || !Present(v.app.history, s.sharing.value.slot) ==> r.state == Shared(v.app, None)
    ensures var v := ArcStrategy.MouseUp(s.app, arc, cursor);
            var appended := |v.app.topology.points| != |s.app.topology.points|;
            s.sharing.Some? && Present(v.app.history, s.sharing.value.slot) ==>
              var sh := s.sharing.value;
              var h := r.state.app.history;
              && r.state.sharing == Some(sh.(points := sh.points && !appended))
              && |h.stack| == |v.app.history.stack|
              && (forall i :: 0 <= i < |v.app.history.stack| && i != sh.slot ==> h.stack[i] == v.app.history.stack[i])
              && Present(h, sh.slot)
              && (sh.objects ==> SlotObjects(h, sh.slot) == v.app.topology.objects)
              && (sh.points && !appended ==> SlotPoints(h, sh.slot) == v.app.topology.points)
              && (!sh.points || appended ==> SlotPoints(h, sh.slot) == SlotPoints(v.app.history, sh.slot))
  {
    var v := ArcStrategy.MouseUp(s.app, arc, cursor);
    var appended := |v.app.topology.points| != |s.app.topology.points|;
    var spread := Replaced(Shared(v.app, s.sharing), appended, false);
    SharedStep(EditedInPlace(spread), v.tool, v.failed)
  }

  /** The position tool's release as written: both stores get fresh arrays by spread. */
  function PositionRelease(s: Shared, cursor: Point): (r: Shared)
    ensures r.app == PositionStrategy.MouseUp(s.app, cursor)
    ensures var h := PositionStrategy.MouseUp(s.app, cursor).history;
            s.sharing.Some? && Present(h, s.sharing.value.slot) ==>
              r.sharing == Some(s.sharing.value.(points := false, objects := false))
    ensures var h := PositionStrategy.MouseUp(s.app, cursor).history;
            s.sharing.None? || !Present(h, s.sharing.value.slot) ==> r.sharing == None
  {
    Replaced(Shared(PositionStrategy.MouseUp(s.app, cursor), s.sharing), true, true)
  }

  /** The select tool's move as written: a drag assigns into the points array in place. */
  function SelectMove(s: Shared, sel: SelectStrategy.SelectState, cursor: Point,
                      near: (Point, seq<Option<Point>>) -> bool): (r: SharedStep<SelectStrategy.SelectState>)
    ensures var v := SelectStrategy.MouseMove(s.app, sel, cursor, near);
            && r.tool == v.tool && r.failed == v.failed
            && r.state.app == v.app.(history := r.state.app.history)
    ensures r.state.sharing == s.sharing
    ensures var v := SelectStrategy.MouseMove(s.app, sel, cursor, near);
            && r.state.app.history.index == v.app.history.index
            && |r.state.app.history.stack| == |v.app.history.stack|
            && forall i :: 0 <= i < |v.app.history.stack| && (s.sharing.None? || i != s.sharing.value.slot) ==>
                 r.state.app.history.stack[i] == v.app.history.stack[i]
    ensures var v := SelectStrategy.MouseMove(s.app, sel, cursor, near);
            s.sharing.Some? && s.sharing.value.points && Present(v.app.history, s.sharing.value.slot)
            && sel.dragging != -1 && !r.failed ==>
              && Present(r.state.app.history, s.sharing.value.slot)
              && SlotPoints(r.state.app.history, s.sharing.value.slot) == s.app.topology.points[sel.dragging := cursor]
  {
    var v := SelectStrategy.MouseMove(s.app, sel, cursor, near);
    SharedStep(EditedInPlace(Shared(v.app, s.sharing)), v.tool, v.failed)
  }

  /** A step that keeps the versions below the index, does not lower the index and does not shrink
      the objects leaves a mirrored state mirrored, once the stores it gave fresh arrays stop
      sharing and its in-place edits reach the shared version. */
  lemma StepMirrors(s: Shared, next: AppState, points: bool, objects: bool)
    requires Mirrors(s)
    requires s.app.history.index <= next.history.index
    requires next.history.stack[..s.app.history.index] == s.app.history.stack[..s.app.history.index]
    requires |s.app.topology.objects| <= |next.topology.objects|
    ensures Mirrors(EditedInPlace(Replaced(Shared(next, s.sharing), points, objects)))
  {
    EditedMirrors(Replaced(Shared(next, s.sharing), points, objects));
  }

  /** An arc release as written keeps the shared parts mirrored. */
  lemma ArcReleaseMirrors(s: Shared, arc: ArcStrategy.ArcState, cursor: Point)
    requires Mirrors(s)
    ensures Mirrors(ArcRelease(s, arc, cursor).state)
  {
    var v := ArcStrategy.MouseUp(s.app, arc, cursor);
    StepMirrors(s, v.app, |v.app.topology.points| != |s.app.topology.points|, false);
  }

  /** A position release as written keeps the shared parts mirrored. */
  lemma PositionReleaseMirrors(s: Shared, cursor: Point)
    requires Mirrors(s)
    ensures Mirrors(PositionRelease(s, cursor))
  {
  }

  /** A select move as written, drag included, keeps the shared parts mirrored. */
  lemma SelectMoveMirrors(s: Shared, sel: SelectStrategy.SelectState, cursor: Point,
                          near: (Point, seq<Option<Point>>) -> bool)
    requires Mirrors(s)
    ensures Mirrors(SelectMove(s, sel, cursor, near).state)
  {
  }

  /** While the objects array is shared with the version undo returns to, undo after a successful
      arc release brings back the objects of the release itself, not those before it. */
  lemma UndoKeepsSharedArcEdit(s: Shared, arc: ArcStrategy.ArcState, cursor: Point)
    requires Mirrors(s)
    requires s.sharing.Some? && s.sharing.value.objects
    requires s.sharing.value.slot == s.app.history.index - 1
    ensures var r := ArcRelease(s, arc, cursor);
            !r.failed ==> Undo(r.state).app.topology.objects == r.state.app.topology.objects
  {
  }

  /** As written: undo at start-up, one arc click at (0,0), undo again. The objects keep the arc
      [0] while the points go back to none, so the arc refers to a point that does not exist. */
  lemma UndoAfterSharedArcClick()
    ensures var u1 := Undo(Shared(State.Init(), None));
            var r := ArcRelease(u1, ArcStrategy.Init(), Point(0, 0));
            var u2 := Undo(r.state);
            && !r.failed
            && u2.app.topology == Topology([], [Obj(Arc, [0], map[])])
            && !Valid(u2.app.topology)
  {
    var u1 := Undo(Shared(State.Init(), None));
    assert u1.app.topology == Topology([], []) by {
      SnapshotInjective(u1.app.topology, Topology([], []));
    }
    var o := Point(0, 0);
    var none: seq<Point> := [];
    Actions.ResolveAppends(none, o);
    assert none + [o] == [o];
    ArcStrategy.ClickStep(u1.app, ArcStrategy.Init(), o, 0, [o], [0]);
    var v := ArcStrategy.MouseUp(u1.app, ArcStrategy.Init(), o);
    var empty := Topology([], []);
    assert u1.app.history.stack[0] == Some(CommitHistory.Snapshot(Stores(empty)));
    assert CommitHistory.Snapshot(Stores(empty)) == [Some(PointsValue([])), Some(ObjectsValue([]))];
    assert u1.sharing == Some(Sharing(0, true, true, true));
    assert v.app.history.stack[0] == v.app.history.stack[..1][0] == u1.app.history.stack[0];
    var spread := Replaced(Shared(v.app, u1.sharing), true, false);
    assert spread.sharing == Some(Sharing(0, false, true, true));
    var r := ArcRelease(u1, ArcStrategy.Init(), o);
    assert r.state == EditedInPlace(spread);
    var arcs := [Obj(Arc, [0], map[])];
    assert v.app.topology.objects == arcs;
    var w := WriteSlot(v.app.history, 0, ObjectsStore, ObjectsValue(arcs));
    assert r.state.app.history == w;
    assert [Some(PointsValue([])), Some(ObjectsValue([]))][ObjectsStore := Some(ObjectsValue(arcs))]
           == [Some(PointsValue([])), Some(ObjectsValue(arcs))];
    assert r.state.app.history.stack[0]
           == Some([Some(PointsValue([])), Some(ObjectsValue([Obj(Arc, [0], map[])]))]);
    var u2 := Undo(r.state);
    assert u2.app.history.index == 1;
    var arcOnly := Topology([], [Obj(Arc, [0], map[])]);
    assert CommitHistory.Snapshot(Stores(arcOnly))
           == [Some(PointsValue([])), Some(ObjectsValue([Obj(Arc, [0], map[])]))];
    SnapshotInjective(u2.app.topology, arcOnly);
    assert !IndicesIn(arcOnly.objects[0].points, 0) by {
      assert arcOnly.objects[0].points[0] == 0;
    }
  }

  /** With the copying restore of `State`, the same events end on the empty topology. */
  lemma CopyingRestoreUndoesArcClick()
    ensures var u1 := State.Undo(State.Init());
            var r := ArcStrategy.MouseUp(u1, ArcStrategy.Init(), Point(0, 0));
            && !r.failed
            && State.Undo(r.app).topology == Topology([], [])
  {
  }
}

=== FILE: arc_strategy.dfy ===
/** The arc tool: each release adds the cursor to the arc under construction (starting a new one
    when none is in progress), closes the arc when it returns to its first point, and commits one
    step; Escape abandons the arc without a step. */
module ArcStrategy {
  import opened Types
  import opened State
  import Actions
  import Utils

  /** `objIdx`: the index of the arc under construction, or -1. */
  datatype ArcState = ArcState(objIdx: int)

  function Init(): ArcState {
    ArcState(-1)
  }

  /** The closing condition: more than two indices, and the last equals the first. */
  predicate Closes(indices: seq<int>) {
    |indices| > 2 && indices[0] == indices[|indices| - 1]
  }

  /** `newArcPoint` with its store writes: points only when a point was appended, objects always
      (the objects update notifies even when `at` found nothing). */
  function ArcPoint(s: AppState, arcIndex: int, cursor: Point): (r: AppState)
    ensures r.topology == Actions.NewArcPoint(s.topology, arcIndex, cursor)
    ensures r == s.(topology := r.topology, history := r.history)
    ensures r.history.index == s.history.index
    ensures r.history.stack[..s.history.index] == s.history.stack[..s.history.index]
  {
    var t := Actions.NewArcPoint(s.topology, arcIndex, cursor);
    var withPoints := if |t.points| != |s.topology.points| then WritePoints(s, t.points) else s;
    assert withPoints.topology.points == t.points;
    WriteObjects(withPoints, t.objects)
  }

  /** The arc a release works on: a new one at the end of the objects, or the one in progress. */
  function Target(s: AppState, arc: ArcState): int {
    if arc.objIdx == -1 then |s.topology.objects| else arc.objIdx
  }

  /** `mouseUp`. Reading the arc back fails (TypeError) when the index in progress no longer names
      an object, e.g. after an undo; otherwise exactly one index is appended to the arc, the tool
      lets go of the arc exactly when it closes, and one step is committed. */
  function MouseUp(s: AppState, arc: ArcState, cursor: Point): (r: Step<ArcState>)
    ensures r.app == s.(topology := r.app.topology, history := r.app.history)
    ensures r.failed <==> !(arc.objIdx == -1 || 0 <= arc.objIdx < |s.topology.objects|)
    ensures r.failed ==> r.tool == arc && r.app.history.index == s.history.index
    ensures r.failed ==> r.app.topology == Actions.NewArcPoint(s.topology, arc.objIdx, cursor)
    ensures r.failed && arc.objIdx >= 0 ==> r.app.topology == s.topology
    ensures !r.failed ==>
              var k := Target(s, arc);
              var before := if arc.objIdx == -1 then [] else s.topology.objects[k].points;
              var (j, ps) := Actions.ResolvePoint(s.topology.points, cursor);
              && r.app.topology.points == ps
              && |r.app.topology.objects| == |s.topology.objects| + (if arc.objIdx == -1 then 1 else 0)
              && r.app.topology.objects[k].points == before + [j]
              && (arc.objIdx == -1 ==> r.app.topology.objects[k] == Obj(Arc, [j], map[]))
              && (forall o :: 0 <= o < |s.topology.objects| && o != k ==>
                    r.app.topology.objects[o] == s.topology.objects[o])
              && r.app.history.index == s.history.index + 1
              && (r.tool.objIdx == -1 <==> Closes(r.app.topology.objects[k].points))
              && (r.tool.objIdx != -1 ==> r.tool.objIdx == k)
    ensures r.app.history.index >= s.history.index
    ensures |s.topology.objects| <= |r.app.topology.objects|
    ensures |s.topology.points| <= |r.app.topology.points|
            && r.app.topology.points[..|s.topology.points|] == s.topology.points
    ensures r.app.history.stack[..s.history.index] == s.history.stack[..s.history.index]
    ensures !r.failed && Valid(s.topology) ==> Valid(r.app.topology)
  {
    var started := if arc.objIdx == -1
                   then WriteObjects(s, s.topology.objects + [Obj(Arc, [], map[])])
                   else s;
    var idx := Target(s, arc);
    assert arc.objIdx == -1 ==> Valid(s.topology) ==> Valid(started.topology);
    var extended := ArcPoint(started, idx, cursor);
    if !(0 <= idx < |extended.topology.objects|) then
      Step(extended, ArcState(idx), true)
    else
      var indices := extended.topology.objects[idx].points;
      Step(Commit(extended), ArcState(if Closes(indices) then -1 else idx), false)
  }

  /** `keyDown`: Escape deletes the object in progress (even when the index is -1) and clears the
      index without a commit; every other key changes nothing. */
  function KeyDown(s: AppState, arc: ArcState, key: string, del: (Topology, int) -> Topology)
    : (r: Step<ArcState>)
    ensures !r.failed
    ensures key == "Escape" ==>
              && r.tool.objIdx == -1
              && r.app.topology == del(s.topology, arc.objIdx)
              && r.app == s.(topology := r.app.topology, history := r.app.history)
              && r.app.history.index == s.history.index
    ensures key != "Escape" ==> r == Step(s, arc, false)
  {
    if key == "Escape" then Step(Delete(s, del, arc.objIdx), ArcState(-1), false)
    else Step(s, arc, false)
  }

  /** One release with an arc in progress or not, on a known topology: the resolved index is
      appended and the tool keeps or lets go of the arc. */
  lemma ClickStep(s: AppState, arc: ArcState, cursor: Point, j: nat, ps: seq<Point>, indices: seq<int>)
    requires arc.objIdx == -1 || arc.objIdx == 0
    requires arc.objIdx == -1 ==> s.topology.objects == []
    requires arc.objIdx == 0 ==> |s.topology.objects| == 1 && s.topology.objects[0].kind == Arc
                                 && s.topology.objects[0].properties == map[]
    requires Actions.ResolvePoint(s.topology.points, cursor) == (j, ps)
    requires indices == (if arc.objIdx == -1 then [] else s.topology.objects[0].points) + [j]
    ensures var r := MouseUp(s, arc, cursor);
            && !r.failed
            && r.app.topology == Topology(ps, [Obj(Arc, indices, map[])])
            && r.tool.objIdx == (if Closes(indices) then -1 else 0)
            && r.app.history.index == s.history.index + 1
  {
  }

  /** A series of releases, each handled by `MouseUp`; a failing release does not stop the series.
      Releases never move the cursor, the viewport, the zoom or the selection, and a series without
      failures commits exactly one step per release. */
  function Releases(s: AppState, arc: ArcState, cursors: seq<Point>): (r: Step<ArcState>)
    ensures r.app.cursor == s.cursor && r.app.viewport == s.viewport
    ensures r.app.zoom == s.zoom && r.app.selected == s.selected
    ensures !r.failed ==> r.app.history.index == s.history.index + |cursors|
    decreases |cursors|
  {
    if |cursors| == 0 then Step(s, arc, false)
    else
      var first := MouseUp(s, arc, cursors[0]);
      var rest := Releases(first.app, first.tool, cursors[1..]);
      rest.(failed := first.failed || rest.failed)
  }

  /** The closing release of the scenario below: clicking on the arc's first point again. */
  lemma {:induction false} LastRelease(s: AppState, a: Point, b: Point)
    requires s.topology == Topology([a, b], [Obj(Arc, [0, 1], map[])])
    ensures var r := Releases(s, ArcState(0), [a]);
            && r.app.topology == Topology([a, b], [Obj(Arc, [0, 1, 0], map[])])
            && r.tool.objIdx == -1 && !r.failed
  {
    Actions.ResolveOnFirst([a, b], a);
    ClickStep(s, ArcState(0), a, 0, [a, b], [0, 1, 0]);
    var r := MouseUp(s, ArcState(0), a);
    assert Releases(s, ArcState(0), [a]) == Releases(r.app, r.tool, []).(failed := r.failed);
  }

  /** The last two releases of the scenario below: a new point, then back to the first one. */
  lemma {:induction false} LastTwoReleases(s: AppState, a: Point, b: Point)
    requires s.topology == Topology([a], [Obj(Arc, [0], map[])])
    requires !Utils.Within(a, b, Actions.SnapRadius)
    ensures var r := Releases(s, ArcState(0), [b, a]);
            && r.app.topology == Topology([a, b], [Obj(Arc, [0, 1, 0], map[])])
            && r.tool.objIdx == -1 && !r.failed
  {
    Actions.ResolveAppends([a], b);
    assert [a] + [b] == [a, b];
    ClickStep(s, ArcState(0), b, 1, [a, b], [0, 1]);
    var r := MouseUp(s, ArcState(0), b);
    assert [b, a][1..] == [a];
    LastRelease(r.app, a, b);
  }

  /** Clicks at a, b, a on an empty topology, with b outside the snap radius of a: b becomes a new
      point, the third click snaps back to a, and the arc [0, 1, 0] closes after three steps. */
  lemma {:induction false} ThreeClicksClose(s: AppState, a: Point, b: Point)
    requires s.topology == Topology([], [])
    requires !Utils.Within(a, b, Actions.SnapRadius)
    ensures var r := Releases(s, Init(), [a, b, a]);
            && r.app.topology == Topology([a, b], [Obj(Arc, [0, 1, 0], map[])])
            && r.tool.objIdx == -1 && !r.failed
            && r.app.history.index == s.history.index + 3
  {
    var e: seq<Point> := [];
    Actions.ResolveAppends(e, a);
    assert e + [a] == [a];
    ClickStep(s, Init(), a, 0, [a], [0]);
    var r := MouseUp(s, Init(), a);
    assert [a, b, a][1..] == [b, a];
    LastTwoReleases(r.app, a, b);
  }

  /** The concrete case: clicks at (0,0), (10,0), (0,0). The second click lies exactly on the snap
      radius, which does not snap. */
  lemma ClicksAtOriginAndTen()
    ensures var r := Releases(State.Init(), Init(), [Point(0, 0), Point(10, 0), Point(0, 0)]);
            && r.app.topology.objects == [Obj(Arc, [0, 1, 0], map[])]
            && r.tool.objIdx == -1
  {
    assert Utils.Distance2(Point(0, 0), Point(10, 0)) == 100;
    ThreeClicksClose(State.Init(), Point(0, 0), Point(10, 0));
  }

  /** Escape abandons the arc in progress: the next release starts a new arc at the end of the
      objects that remain after the delete. */
  lemma EscapeThenRelease(s: AppState, arc: ArcState, cursor: Point, del: (Topology, int) -> Topology)
    ensures var esc := KeyDown(s, arc, "Escape", del);
            var r := MouseUp(esc.app, esc.tool, cursor);
            && !r.failed
            && |r.app.topology.objects| == |del(s.topology, arc.objIdx).objects| + 1
            && r.app.topology.objects[|del(s.topology, arc.objIdx).objects|].kind == Arc
  {
  }

  /** A successful release is undone exactly by one undo, from any restore point: in particular
      right after an undo, when the restore hands the stores a copy of the version. */
  lemma ReleaseThenUndo(s: AppState, arc: ArcState, cursor: Point)
    requires AtRestorePoint(s)
    ensures var r := MouseUp(s, arc, cursor);
            !r.failed ==> Undo(r.app).topology == s.topology
  {
  }
}

=== FILE: commit_history.dfy ===
/** The commit-index history over a fixed list of tracked stores.

    `stack[index - 1]` is the version restored by undo/redo and `stack[index]` is the pending
    slot that changes of tracked stores are written into until the next `commit`. A slot is
    either missing (`None`, a hole left in the JavaScript array) or a version holding, per store,
    the value last written (`None` where the slot was never written). The index starts at 1. */
module CommitHistory {
  import opened Types

  type Version<V> = seq<Option<V>>

  /** The published `{ canUndo, canRedo }` state. */
  datatype Flags = Flags(canUndo: bool, canRedo: bool)

  datatype History<V> = History(index: int, stack: seq<Option<Version<V>>>, width: nat,
                                tracking: bool, state: Flags)

  /** The index names a restorable slot or the end of the stack; every version has one entry per store. */
  predicate WellFormed<V>(h: History<V>) {
    && 1 <= h.index <= |h.stack|
    && forall i :: 0 <= i < |h.stack| && h.stack[i].Some? ==> |h.stack[i].value| == h.width
  }

  /** `update()`: the flags as computed from the index. */
  function FlagsOf<V>(h: History<V>): Flags {
    Flags(h.index > 1, h.index < |h.stack| - 1)
  }

  /** The class invariant between public calls: tracking is on and the published flags are current. */
  predicate Inv<V>(h: History<V>) {
    WellFormed(h) && h.tracking && h.state == FlagsOf(h)
  }

  /** A version with every store's value present. */
  function Snapshot<V>(values: seq<V>): (r: Version<V>)
    ensures |r| == |values|
    ensures forall k :: 0 <= k < |r| ==> r[k] == Some(values[k])
  {
    seq(|values|, k requires 0 <= k < |values| => Some(values[k]))
  }

  /** `new Array(n)`: a version of `n` holes. */
  function Holes<V>(n: nat): (r: Version<V>)
    ensures |r| == n
    ensures forall k :: 0 <= k < n ==> r[k] == None
  {
    seq(n, k => None)
  }

  /** The constructor: one snapshot of every tracked store, index 1, tracking on. */
  function Create<V>(values: seq<V>): (h: History<V>)
    ensures Inv(h)
    ensures h.index == 1 && h.width == |values|
    ensures h.stack == [Some(Snapshot(values))]
    ensures !h.state.canUndo && !h.state.canRedo
  {
    History(1, [Some(Snapshot(values))], |values|, true, Flags(false, false))
  }

  /** The slot that tracked changes are currently written into. */
  function Pending<V>(h: History<V>): Option<Version<V>>
    requires WellFormed(h)
  {
    if h.index < |h.stack| then h.stack[h.index] else None
  }

  /** `currentVersion()`: the slot undo and redo restore. */
  function CurrentVersion<V>(h: History<V>): Option<Version<V>>
    requires WellFormed(h)
  {
    h.stack[h.index - 1]
  }

  /** Stores `slot` as the pending slot, appending it when the index is at the end of the stack. */
  function PutPending<V>(h: History<V>, slot: Version<V>): (r: History<V>)
    requires WellFormed(h) && |slot| == h.width
    ensures WellFormed(r)
    ensures r.index == h.index && r.width == h.width && r.tracking == h.tracking && r.state == h.state
    ensures |r.stack| == (if h.index < |h.stack| then |h.stack| else |h.stack| + 1)
    ensures r.stack[h.index] == Some(slot)
    ensures forall i :: 0 <= i < |h.stack| && i != h.index ==> r.stack[i] == h.stack[i]
  {
    if h.index < |h.stack| then h.(stack := h.stack[h.index := Some(slot)])
    else h.(stack := h.stack + [Some(slot)])
  }

  /** The subscription callback of store `storeIdx` as written: a missing pending slot is created
      as `new Array(width)`, then the store's new value is put into it. Ignored while untracked. */
  function Record<V>(h: History<V>, storeIdx: nat, v: V): (r: History<V>)
    requires WellFormed(h) && storeIdx < h.width
    ensures WellFormed(r)
    ensures r.index == h.index && r.width == h.width && r.tracking == h.tracking && r.state == h.state
    ensures !h.tracking ==> r == h
    ensures h.tracking ==>
              && |r.stack| == (if h.index < |h.stack| then |h.stack| else |h.stack| + 1)
              && (forall i :: 0 <= i < |h.stack| && i != h.index ==> r.stack[i] == h.stack[i])
              && Pending(r).Some? && Pending(r).value[storeIdx] == Some(v)
              && forall k :: 0 <= k < h.width && k != storeIdx ==>
                   Pending(r).value[k] == (if Pending(h).Some? then Pending(h).value[k] else None)
  {
    if !h.tracking then h
    else
      var base := if Pending(h).Some? then Pending(h).value else Holes(h.width);
      PutPending(h, base[storeIdx := Some(v)])
  }

  /** The corrected callback: a missing pending slot is created from the current values of all
      tracked stores, so every slot ever created holds a value for every store. */
  function RecordFilled<V>(h: History<V>, storeIdx: nat, v: V, current: seq<V>): (r: History<V>)
    requires WellFormed(h) && storeIdx < h.width && |current| == h.width
    ensures WellFormed(r)
    ensures r.index == h.index && r.width == h.width && r.tracking == h.tracking && r.state == h.state
    ensures !h.tracking ==> r == h
    ensures h.tracking ==>
              && |r.stack| == (if h.index < |h.stack| then |h.stack| else |h.stack| + 1)
              && (forall i :: 0 <= i < |h.stack| && i != h.index ==> r.stack[i] == h.stack[i])
              && Pending(r).Some? && Pending(r).value[storeIdx] == Some(v)
              && forall k :: 0 <= k < h.width && k != storeIdx ==>
                   Pending(r).value[k] == (if Pending(h).Some? then Pending(h).value[k] else Some(current[k]))
  {
    if !h.tracking then h
    else
      var base := if Pending(h).Some? then Pending(h).value else Snapshot(current);
      PutPending(h, base[storeIdx := Some(v)])
  }

  /** `commit`: the pending slot becomes the restorable version and everything after it is dropped;
      with no pending slot the stack grows by a hole. */
  function Commit<V>(h: History<V>): (r: History<V>)
    requires WellFormed(h)
    ensures WellFormed(r)
    ensures r.index == h.index + 1 && |r.stack| == r.index
    ensures r.width == h.width && r.tracking == h.tracking
    ensures r.stack[..h.index] == h.stack[..h.index]
    ensures r.stack[h.index] == Pending(h)
    ensures r.state == Flags(true, false)
    ensures Inv(h) ==> Inv(r)
  {
    var index := h.index + 1;
    var stack := if index <= |h.stack| then h.stack[..index] else h.stack + [None];
    History(index, stack, h.width, h.tracking, Flags(index > 1, index < |stack| - 1))
  }

  /** `applyVersion`: the subscriptions are disposed, every store is set from `stack[index - 1]`
      (nothing when that slot is missing), and new subscriptions are made, so the writes are not
      recorded. Returns the writes made: entry `k` is the value store `k` is set to, `None`
      meaning the store is set to `undefined`. */
  function ApplyVersion<V>(h: History<V>): (r: (History<V>, Option<Version<V>>))
    requires WellFormed(h)
    ensures r.1 == CurrentVersion(h)
    ensures r.0 == h.(tracking := true)
  {
    (h.(tracking := true), CurrentVersion(h))
  }

  /** `undo`: step back unless the index is 1, restore the version under the index, publish the flags. */
  function Undo<V>(h: History<V>): (r: (History<V>, Option<Version<V>>))
    requires Inv(h)
    ensures Inv(r.0) && r.0.stack == h.stack && r.0.width == h.width
    ensures r.0.index == (if h.index > 1 then h.index - 1 else h.index)
    ensures r.1 == r.0.stack[r.0.index - 1]
    ensures r.0.state.canUndo <==> r.0.index > 1
    ensures r.0.state.canRedo <==> r.0.index < |r.0.stack| - 1
  {
    var moved := if h.index > 1 then h.(index := h.index - 1) else h;
    var (applied, version) := ApplyVersion(moved);
    (applied.(state := FlagsOf(applied)), version)
  }

  /** `redo`: step forward only while the index is below `|stack| - 1`, then restore and publish. */
  function Redo<V>(h: History<V>): (r: (History<V>, Option<Version<V>>))
    requires Inv(h)
    ensures Inv(r.0) && r.0.stack == h.stack && r.0.width == h.width
    ensures r.0.index == (if h.index < |h.stack| - 1 then h.index + 1 else h.index)
    ensures r.1 == r.0.stack[r.0.index - 1]
    ensures r.0.state.canUndo <==> r.0.index > 1
    ensures r.0.state.canRedo <==> r.0.index < |r.0.stack| - 1
  {
    var moved := if h.index < |h.stack| - 1 then h.(index := h.index + 1) else h;
    var (applied, version) := ApplyVersion(moved);
    (applied.(state := FlagsOf(applied)), version)
  }

  /** A tracked write keeps the class invariant, and with it the published flags. */
  lemma RecordKeepsInv<V>(h: History<V>, storeIdx: nat, v: V)
    requires Inv(h) && storeIdx < h.width
    ensures Inv(Record(h, storeIdx, v))
  {
  }

  /** Redo cannot reach the version committed last: from below the end of the stack, the
      restored slot is never `stack[|stack| - 1]`. */
  lemma RedoNeverRestoresLatest<V>(h: History<V>)
    requires Inv(h) && h.index < |h.stack|
    ensures Redo(h).0.index - 1 < |h.stack| - 1
  {
  }

  /** Right after a commit and one undo, redo leaves the index where undo put it. */
  lemma CommitUndoRedoIsStuck<V>(h: History<V>)
    requires Inv(h)
    ensures var u := Undo(Commit(h)).0;
            Redo(u).0.index == u.index && Redo(u).1 == Undo(Commit(h)).1
  {
  }

  /** Every created slot holds a value for every store. */
  predicate Filled<V>(slot: Version<V>) {
    forall k :: 0 <= k < |slot| ==> slot[k].Some?
  }

  predicate Complete<V>(h: History<V>) {
    forall i :: 0 <= i < |h.stack| && h.stack[i].Some? ==> Filled(h.stack[i].value)
  }

  /** The as-written recording can leave holes: one store changed in a step, a later step commits,
      and undoing to the first step sets the other store to `undefined`. */
  lemma UndoRestoresUndefined()
    ensures var h0 := Create([10, 20]);
            var h2 := Commit(Record(h0, 0, 11));
            var h4 := Commit(Record(Record(h2, 0, 12), 1, 22));
            Undo(h4).1 == Some([Some(11), None])
  {
    var h0 := Create([10, 20]);
    var h1 := Record(h0, 0, 11);
    assert Pending(h0).None? && h1.index == 1 && |h1.stack| == 2;
    var slot := Pending(h1).value;
    assert |slot| == 2 && slot[0] == Some(11) && slot[1] == None;
    assert slot == [Some(11), None];
    assert h1.stack[1] == Some([Some(11), None]);
    var h2 := Commit(h1);
    var h3 := Record(h2, 0, 12);
    var h4 := Commit(Record(h3, 1, 22));
    assert h4.stack[1] == Some([Some(11), None]);
  }

  /** With the corrected recording every version stays complete, so undo and redo never set a
      tracked store to `undefined`. */
  lemma RecordFilledKeepsComplete<V>(h: History<V>, storeIdx: nat, v: V, current: seq<V>)
    requires WellFormed(h) && storeIdx < h.width && |current| == h.width && Complete(h)
    ensures Complete(RecordFilled(h, storeIdx, v, current))
  {
  }

  lemma CommitKeepsComplete<V>(h: History<V>)
    requires WellFormed(h) && Complete(h)
    ensures Complete(Commit(h))
  {
  }

  /** From a complete history, every version undo or redo restores sets every store to a value. */
  lemma CompleteRestoresEveryStore<V>(h: History<V>)
    requires Inv(h) && Complete(h)
    ensures Undo(h).1.Some? ==> Filled(Undo(h).1.value) && |Undo(h).1.value| == h.width
    ensures Redo(h).1.Some? ==> Filled(Redo(h).1.value) && |Redo(h).1.value| == h.width
  {
  }
}

=== FILE: editor.dfy ===
/** The editor: it owns one instance of each tool strategy, forwards pointer and key events to the
    active one, handles undo and redo keys itself, and zooms around the cursor on wheel events.
    Tool switching (the `activeTool` subscription) is outside this model, so the active tool stays
    fixed over a run of events. */
module Editor {
  import opened Types
  import opened State
  import Utils
  import HandStrategy
  import PositionStrategy
  import ArcStrategy
  import SelectStrategy

  datatype Tool = HandTool | PositionTool | ArcTool | SelectTool

  /** The shared state, the active tool and each strategy's own state. */
  datatype EditorState = EditorState(app: AppState, tool: Tool, hand: HandStrategy.HandState,
                                     arc: ArcStrategy.ArcState, select: SelectStrategy.SelectState)

  /** The DOM events the editor listens to, reduced to the fields it reads. `MouseMove` carries the
      cursor already converted to scene coordinates. */
  datatype Event =
    | MouseDown
    | MouseUp
    | MouseMove(position: Point, movementX: int, movementY: int)
    | KeyDown(key: string, metaKey: bool, shiftKey: bool)
    | Wheel(deltaY: int)

  /** An event's outcome: the new editor state and whether the handler stopped with a TypeError. */
  datatype Outcome = Outcome(editor: EditorState, failed: bool)

  const MinZoom: int := 1
  const MaxZoom: int := 8

  /** The editor at start-up with tool `tool`. */
  function Init(tool: Tool): (e: EditorState)
    ensures e.app.zoom == MinZoom && e.tool == tool
    ensures InSync(e.app)
  {
    EditorState(State.Init(), tool, HandStrategy.Init(), ArcStrategy.Init(), SelectStrategy.Init())
  }

  /** The zoom after a wheel step: one up or down with the sign of `deltaY`, kept within the bounds. */
  function NextZoom(zoom: int, deltaY: int): (r: int)
    ensures MinZoom <= r <= MaxZoom
    ensures MinZoom <= zoom <= MaxZoom ==> -1 <= r - zoom <= 1
    ensures deltaY > 0 && MinZoom <= zoom < MaxZoom ==> r == zoom + 1
    ensures deltaY < 0 && MinZoom < zoom <= MaxZoom ==> r == zoom - 1
    ensures deltaY == 0 && MinZoom <= zoom <= MaxZoom ==> r == zoom
  {
    Utils.Clamp(zoom + Utils.Sign(deltaY), MinZoom, MaxZoom)
  }

  /** `onWheel`: the zoom steps and is clamped, then the viewport origin is set to
      `cursor - cursor * zoom`, so the cursor's scene point is drawn at device position `cursor`
      afterwards, whatever the origin was before; the viewport size and everything else are
      unchanged. */
  function OnWheel(e: EditorState, deltaY: int): (r: EditorState)
    ensures MinZoom <= r.app.zoom <= MaxZoom
    ensures r.app.zoom == NextZoom(e.app.zoom, deltaY)
    ensures var c := e.app.cursor.position;
            && c.x * r.app.zoom + r.app.viewport.x == c.x
            && c.y * r.app.zoom + r.app.viewport.y == c.y
    ensures r.app.viewport.width == e.app.viewport.width && r.app.viewport.height == e.app.viewport.height
    ensures r == e.(app := e.app.(zoom := r.app.zoom, viewport := r.app.viewport))
  {
    var zoom := NextZoom(e.app.zoom, deltaY);
    var c := e.app.cursor.position;
    var v := e.app.viewport.(x := c.x - c.x * zoom, y := c.y - c.y * zoom);
    e.(app := e.app.(zoom := zoom, viewport := v))
  }

  /** The history part of `onKeyDown`: meta+shift+z redoes, meta+z without shift undoes. */
  function HistoryKey(s: AppState, key: string, metaKey: bool, shiftKey: bool): (r: AppState)
    ensures metaKey && shiftKey && key == "z" ==> r == Redo(s)
    ensures metaKey && !shiftKey && key == "z" ==> r == Undo(s)
    ensures !(metaKey && key == "z") ==> r == s
  {
    if metaKey && shiftKey && key == "z" then Redo(s)
    else if metaKey && key == "z" then Undo(s)
    else s
  }

  /** `onKeyDown`: history keys first, then the event goes on to the active strategy's `keyDown`,
      which only the arc and select tools define. */
  function OnKeyDown(e: EditorState, key: string, metaKey: bool, shiftKey: bool,
                     del: (Topology, int) -> Topology): (r: Outcome)
    ensures !r.failed && r.editor.tool == e.tool && r.editor.hand == e.hand
    ensures r.editor.app.zoom == e.app.zoom && r.editor.app.viewport == e.app.viewport
    ensures e.tool == HandTool || e.tool == PositionTool ==>
              r.editor == e.(app := HistoryKey(e.app, key, metaKey, shiftKey))
    ensures e.tool == ArcTool && key != "Escape" ==>
              r.editor == e.(app := HistoryKey(e.app, key, metaKey, shiftKey))
    ensures e.tool == SelectTool && !SelectStrategy.IsDeleteKey(key) ==>
              r.editor == e.(app := HistoryKey(e.app, key, metaKey, shiftKey))
    ensures e.tool == ArcTool && key == "Escape" ==>
              && r.editor.arc.objIdx == -1
              && r.editor.app.topology == del(e.app.topology, e.arc.objIdx)
              && r.editor.app.history.index == e.app.history.index
    ensures e.tool == SelectTool && SelectStrategy.IsDeleteKey(key) && e.app.selected != -1 ==>
              && r.editor.app.topology == del(e.app.topology, e.app.selected)
              && r.editor.app.history.index == e.app.history.index + 1
    ensures e.tool == ArcTool ==>
              var st := ArcStrategy.KeyDown(HistoryKey(e.app, key, metaKey, shiftKey), e.arc, key, del);
              r == Outcome(e.(app := st.app, arc := st.tool), st.failed)
    ensures e.tool == SelectTool ==>
              var st := SelectStrategy.KeyDown(HistoryKey(e.app, key, metaKey, shiftKey), e.select, key, del);
              r == Outcome(e.(app := st.app, select := st.tool), st.failed)
  {
    var app := HistoryKey(e.app, key, metaKey, shiftKey);
    match e.tool
    case ArcTool =>
      var st := ArcStrategy.KeyDown(app, e.arc, key, del);
      Outcome(e.(app := st.app, arc := st.tool), st.failed)
    case SelectTool =>
      var st := SelectStrategy.KeyDown(app, e.select, key, del);
      Outcome(e.(app := st.app, select := st.tool), st.failed)
    case _ => Outcome(e.(app := app), false)
  }

  /** `onMouseDown`: the stored cursor position goes to the hand or select strategy; the position
      and arc tools define no `mouseDown`, so nothing changes. */
  function OnMouseDown(e: EditorState): (r: Outcome)
    ensures r.editor.tool == e.tool && r.editor.app.zoom == e.app.zoom
    ensures e.tool == PositionTool || e.tool == ArcTool ==> r == Outcome(e, false)
    ensures e.tool == HandTool ==> r.editor.app == e.app.(cursor := e.app.cursor.(kind := Grabbing))
    ensures e.tool == HandTool ==>
              var st := HandStrategy.MouseDown(e.app, e.hand);
              r == Outcome(e.(app := st.app, hand := st.tool), st.failed)
    ensures e.tool == SelectTool ==> r.editor.app == e.app
    ensures e.tool == SelectTool ==>
              var st := SelectStrategy.MouseDown(e.app, e.select, e.app.cursor.position);
              r == Outcome(e.(app := st.app, select := st.tool), st.failed)
  {
    match e.tool
    case HandTool =>
      var st := HandStrategy.MouseDown(e.app, e.hand);
      Outcome(e.(app := st.app, hand := st.tool), st.failed)
    case SelectTool =>
      var st := SelectStrategy.MouseDown(e.app, e.select, e.app.cursor.position);
      Outcome(e.(app := st.app, select := st.tool), st.failed)
    case _ => Outcome(e, false)
  }

  /** `onMouseUp`: every strategy defines `mouseUp`; it receives the stored cursor position (the
      hand and select tools ignore it). */
  function OnMouseUp(e: EditorState): (r: Outcome)
    ensures r.editor.tool == e.tool && r.editor.app.zoom == e.app.zoom
    ensures e.tool == PositionTool ==>
              r == Outcome(e.(app := PositionStrategy.MouseUp(e.app, e.app.cursor.position)), false)
    ensures e.tool == HandTool ==> r.editor.app == e.app.(cursor := e.app.cursor.(kind := Grab))
    ensures e.tool == HandTool ==>
              var st := HandStrategy.MouseUp(e.app, e.hand);
              r == Outcome(e.(app := st.app, hand := st.tool), st.failed)
    ensures e.tool == ArcTool ==>
              r.editor.app.history.index == e.app.history.index + (if r.failed then 0 else 1)
    ensures e.tool == ArcTool ==>
              var st := ArcStrategy.MouseUp(e.app, e.arc, e.app.cursor.position);
              r == Outcome(e.(app := st.app, arc := st.tool), st.failed)
    ensures e.tool == SelectTool ==>
              var st := SelectStrategy.MouseUp(e.app, e.select);
              && r == Outcome(e.(app := st.app, select := st.tool), st.failed)
              && r.editor.app.selected == e.select.hovered
  {
    match e.tool
    case HandTool =>
      var st := HandStrategy.MouseUp(e.app, e.hand);
      Outcome(e.(app := st.app, hand := st.tool), st.failed)
    case PositionTool =>
      Outcome(e.(app := PositionStrategy.MouseUp(e.app, e.app.cursor.position)), false)
    case ArcTool =>
      var st := ArcStrategy.MouseUp(e.app, e.arc, e.app.cursor.position);
      Outcome(e.(app := st.app, arc := st.tool), st.failed)
    case SelectTool =>
      var st := SelectStrategy.MouseUp(e.app, e.select);
      Outcome(e.(app := st.app, select := st.tool), st.failed)
  }

  /** `onMouseMove`: the cursor position is stored first, then the hand or select strategy gets it;
      the position and arc tools define no `mouseMove`. */
  function OnMouseMove(e: EditorState, position: Point, movementX: int, movementY: int,
                       near: (Point, seq<Option<Point>>) -> bool): (r: Outcome)
    ensures r.editor.tool == e.tool && r.editor.app.zoom == e.app.zoom
    ensures r.editor.app.cursor.position == position
    ensures r.editor.app.history.index == e.app.history.index
    ensures e.tool == PositionTool || e.tool == ArcTool ==>
              r == Outcome(e.(app := e.app.(cursor := e.app.cursor.(position := position))), false)
    ensures e.tool == HandTool ==>
              var st := HandStrategy.MouseMove(e.app.(cursor := e.app.cursor.(position := position)),
                                               e.hand, position, movementX, movementY);
              r == Outcome(e.(app := st.app, hand := st.tool), st.failed)
    ensures e.tool == SelectTool ==>
              var st := SelectStrategy.MouseMove(e.app.(cursor := e.app.cursor.(position := position)),
                                                 e.select, position, near);
              r == Outcome(e.(app := st.app, select := st.tool), st.failed)
  {
    var app := e.app.(cursor := e.app.cursor.(position := position));
    match e.tool
    case HandTool =>
      var st := HandStrategy.MouseMove(app, e.hand, position, movementX, movementY);
      Outcome(e.(app := st.app, hand := st.tool), st.failed)
    case SelectTool =>
      var st := SelectStrategy.MouseMove(app, e.select, position, near);
      Outcome(e.(app := st.app, select := st.tool), st.failed)
    case _ => Outcome(e.(app := app), false)
  }

  /** One event. Only a wheel event changes the zoom, and it keeps it within the bounds. */
  function Dispatch(e: EditorState, ev: Event, del: (Topology, int) -> Topology,
                    near: (Point, seq<Option<Point>>) -> bool): (r: Outcome)
    ensures r.editor.tool == e.tool
    ensures !ev.Wheel? ==> r.editor.app.zoom == e.app.zoom
    ensures ev.Wheel? ==> MinZoom <= r.editor.app.zoom <= MaxZoom && !r.failed
  {
    match ev
    case MouseDown => OnMouseDown(e)
    case MouseUp => OnMouseUp(e)
    case MouseMove(p, mx, my) => OnMouseMove(e, p, mx, my, near)
    case KeyDown(key, meta, shift) => OnKeyDown(e, key, meta, shift, del)
    case Wheel(dy) => Outcome(OnWheel(e, dy), false)
  }

  /** A run of events; a handler that fails does not stop the editor, so the run goes on from the
      state the failure left. `failures` counts the failed events. */
  function Run(e: EditorState, evs: seq<Event>, del: (Topology, int) -> Topology,
               near: (Point, seq<Option<Point>>) -> bool): (r: (EditorState, nat))
    ensures r.0.tool == e.tool
    ensures r.1 <= |evs|
    ensures MinZoom <= e.app.zoom <= MaxZoom ==> MinZoom <= r.0.app.zoom <= MaxZoom
    decreases |evs|
  {
    if |evs| == 0 then (e, 0)
    else
      var first := Dispatch(e, evs[0], del, near);
      var (last, failures) := Run(first.editor, evs[1..], del, near);
      (last, failures + (if first.failed then 1 else 0))
  }

  /** With the position tool: a move to `p`, a release, then meta+z. The release places a position
      at `p`; the undo key takes the topology back to what it was. */
  lemma PlaceThenUndoKey(e: EditorState, p: Point, del: (Topology, int) -> Topology,
                         near: (Point, seq<Option<Point>>) -> bool)
    requires e.tool == PositionTool && InSync(e.app)
    ensures var moved := OnMouseMove(e, p, 0, 0, near).editor;
            var placed := OnMouseUp(moved).editor;
            var undone := OnKeyDown(placed, "z", true, false, del).editor;
            && placed.app.topology.points == e.app.topology.points + [p]
            && undone.app.topology == e.app.topology
  {
  }

  /** The cursor's scene point is drawn at the same device position before and after a wheel event
      exactly when it was drawn at its own scene coordinates before; any other origin, such as
      one left by panning, is discarded (zoom 1, origin x 5, cursor x 0: drawn at 5 before, 0
      after). */
  lemma WheelKeepsCursorPointIff(e: EditorState, deltaY: int)
    ensures var r := OnWheel(e, deltaY);
            var c := e.app.cursor.position;
            && (c.x * r.app.zoom + r.app.viewport.x == c.x * e.app.zoom + e.app.viewport.x
                <==> c.x * e.app.zoom + e.app.viewport.x == c.x)
            && (c.y * r.app.zoom + r.app.viewport.y == c.y * e.app.zoom + e.app.viewport.y
                <==> c.y * e.app.zoom + e.app.viewport.y == c.y)
  {
  }

  /** Zooming in and then out again, inside the bounds, restores the zoom and leaves the viewport
      origin re-centred on the cursor for that zoom. */
  lemma WheelInThenOut(e: EditorState, deltaY: int)
    requires deltaY > 0 && MinZoom <= e.app.zoom < MaxZoom
    ensures var back := OnWheel(OnWheel(e, deltaY), -deltaY);
            var c := e.app.cursor.position;
            && back.app.zoom == e.app.zoom
            && back.app.viewport.x == c.x - c.x * e.app.zoom
            && back.app.viewport.y == c.y - c.y * e.app.zoom
  {
  }
}

=== FILE: hand_strategy.dfy ===
/** The hand tool: pressing shows the grabbing cursor, releasing the grab cursor, and moving
    pans the viewport by the raw pointer movement unless the cursor is the grab cursor. */
module HandStrategy {
  import opened Types
  import opened State

  datatype HandState = HandState(previousCursorPosition: Point)

  function Init(): HandState {
    HandState(Point(0, 0))
  }

  /** `mouseMove`: the cursor is always remembered; the viewport moves by the movement delta
      unless the cursor type is grab. Topology and history are not touched. */
  function MouseMove(s: AppState, hand: HandState, cursor: Point, movementX: int, movementY: int)
    : (r: Step<HandState>)
    ensures !r.failed && r.tool.previousCursorPosition == cursor
    ensures r.app == s.(viewport := r.app.viewport)
    ensures r.app.viewport.width == s.viewport.width && r.app.viewport.height == s.viewport.height
    ensures s.cursor.kind == Grab ==> r.app.viewport == s.viewport
    ensures s.cursor.kind != Grab ==>
              r.app.viewport.x - s.viewport.x == movementX && r.app.viewport.y - s.viewport.y == movementY
  {
    if s.cursor.kind == Grab then Step(s, HandState(cursor), false)
    else
      var v := s.viewport;
      Step(s.(viewport := v.(x := v.x + movementX, y := v.y + movementY)), HandState(cursor), false)
  }

  /** `mouseDown`: only the cursor type changes, to grabbing. */
  function MouseDown(s: AppState, hand: HandState): (r: Step<HandState>)
    ensures !r.failed && r.tool == hand
    ensures r.app == s.(cursor := s.cursor.(kind := Grabbing))
  {
    Step(s.(cursor := s.cursor.(kind := Grabbing)), hand, false)
  }

  /** `mouseUp`: only the cursor type changes, to grab. */
  function MouseUp(s: AppState, hand: HandState): (r: Step<HandState>)
    ensures !r.failed && r.tool == hand
    ensures r.app == s.(cursor := s.cursor.(kind := Grab))
  {
    Step(s.(cursor := s.cursor.(kind := Grab)), hand, false)
  }

  /** A press-drag-release gesture pans by the sum of the movements and ends on the grab cursor,
      after which further moves no longer pan. */
  lemma DragPansBySum(s: AppState, hand: HandState, c1: Point, c2: Point, dx1: int, dy1: int, dx2: int, dy2: int)
    ensures var down := MouseDown(s, hand);
            var m1 := MouseMove(down.app, down.tool, c1, dx1, dy1);
            var m2 := MouseMove(m1.app, m1.tool, c2, dx2, dy2);
            var up := MouseUp(m2.app, m2.tool);
            && up.app.viewport == s.viewport.(x := s.viewport.x + dx1 + dx2, y := s.viewport.y + dy1 + dy2)
            && up.app.topology == s.topology && up.app.history == s.history
            && up.app.cursor.kind == Grab
            && MouseMove(up.app, up.tool, c1, dx1, dy1).app == up.app
  {
  }
}

=== FILE: observable.dfy ===
/** The observer list: observers are compared by identity, modelled as values of an equality type. */
module Observable {

  datatype Observable<O> = Observable(observers: seq<O>)

  /** A call made by `notify`: the observer and the data it was called with. */
  datatype Call<O, D> = Call(observer: O, data: D)

  /** `subscribe`: the observer goes to the end of the list, even when it is already there. */
  function Subscribe<O>(obs: Observable<O>, fn: O): (r: Observable<O>)
    ensures |r.observers| == |obs.observers| + 1
    ensures r.observers[..|obs.observers|] == obs.observers && r.observers[|obs.observers|] == fn
  {
    Observable(obs.observers + [fn])
  }

  /** `filter((observer) => observer !== fn)`: every occurrence of `fn` dropped, the rest kept. */
  function Remove<O(==)>(s: seq<O>, fn: O): (r: seq<O>)
    ensures |r| <= |s|
    ensures fn !in r
    ensures forall i :: 0 <= i < |r| ==> r[i] in s
    ensures forall i :: 0 <= i < |s| && s[i] != fn ==> s[i] in r
    ensures fn !in s ==> r == s
    ensures forall i :: 0 <= i < |s| && s[i] != fn ==> multiset(r)[s[i]] == multiset(s)[s[i]]
  {
    if |s| == 0 then []
    else
      var rest := Remove(s[1..], fn);
      assert s == [s[0]] + s[1..];
      if s[0] == fn then rest else [s[0]] + rest
  }

  /** `unsubscribe`. */
  function Unsubscribe<O(==)>(obs: Observable<O>, fn: O): (r: Observable<O>)
    ensures fn !in r.observers
    ensures forall i :: 0 <= i < |r.observers| ==> r.observers[i] in obs.observers
    ensures forall i :: 0 <= i < |obs.observers| && obs.observers[i] != fn ==> obs.observers[i] in r.observers
    ensures fn !in obs.observers ==> r == obs
  {
    Observable(Remove(obs.observers, fn))
  }

  /** `notify`: every observer is called once per occurrence, in list order, with the same data. */
  function Notify<O, D>(obs: Observable<O>, data: D): (r: seq<Call<O, D>>)
    ensures |r| == |obs.observers|
    ensures forall i :: 0 <= i < |r| ==> r[i] == Call(obs.observers[i], data)
  {
    seq(|obs.observers|, i requires 0 <= i < |obs.observers| => Call(obs.observers[i], data))
  }

  /** Removal works piecewise, so the observers that stay keep their relative order. */
  lemma {:induction false} RemoveAppend<O>(a: seq<O>, b: seq<O>, fn: O)
    ensures Remove(a + b, fn) == Remove(a, fn) + Remove(b, fn)
    decreases |a|
  {
    if |a| == 0 {
      assert a + b == b;
    } else {
      assert (a + b)[1..] == a[1..] + b;
      RemoveAppend(a[1..], b, fn);
    }
  }

  /** Unsubscribing twice is the same as unsubscribing once. */
  lemma UnsubscribeIdempotent<O>(obs: Observable<O>, fn: O)
    ensures Unsubscribe(Unsubscribe(obs, fn), fn) == Unsubscribe(obs, fn)
  {
  }

  /** Subscribing an observer that is not yet in the list and unsubscribing it restores the list. */
  lemma {:induction false} SubscribeThenUnsubscribe<O>(obs: Observable<O>, fn: O)
    requires fn !in obs.observers
    ensures Unsubscribe(Subscribe(obs, fn), fn) == obs
  {
    RemoveAppend(obs.observers, [fn], fn);
    assert Remove([fn], fn) == [] by {
      assert [fn][1..] == [];
    }
  }

  /** After unsubscribing, a notification reaches only observers that were subscribed before, and
      never `fn`. */
  lemma NotifyAfterUnsubscribe<O, D>(obs: Observable<O>, fn: O, data: D)
    ensures var calls := Notify(Unsubscribe(obs, fn), data);
            forall i :: 0 <= i < |calls| ==> calls[i].observer != fn && calls[i].observer in obs.observers
  {
  }
}

=== FILE: position_strategy.dfy ===
/** The position tool: each release places a position at the cursor and commits one step. */
module PositionStrategy {
  import opened Types
  import opened State
  import Actions
  import CommitHistory

  /** `mouseUp`: `newPosition(cursor)` (points, then objects) and one `commit`. The committed step
      holds the new topology; nothing existing changes. */
  function MouseUp(s: AppState, cursor: Point): (r: AppState)
    ensures r == s.(topology := r.topology, history := r.history)
    ensures r.topology.points == s.topology.points + [cursor]
    ensures r.topology.objects == s.topology.objects + [Obj(Position, [|s.topology.points|], map[])]
    ensures r.history.index == s.history.index + 1 && |r.history.stack| == r.history.index
    ensures r.history.stack[..s.history.index] == s.history.stack[..s.history.index]
    ensures r.history.stack[s.history.index] == Some(CommitHistory.Snapshot(Stores(r.topology)))
    ensures Valid(s.topology) ==> Valid(r.topology)
  {
    var t := Actions.NewPosition(s.topology, cursor);
    assert t.points == s.topology.points + [cursor];
    assert t.objects == s.topology.objects + [Obj(Position, [|s.topology.points|], map[])];
    Commit(WriteTopology(s, t))
  }

  /** Placing a position from a synchronised state and undoing it gives back the earlier topology
      (for a click at (10,10) on the empty start state: one point, one position, then empty again). */
  lemma PlaceThenUndo(s: AppState, cursor: Point)
    requires InSync(s)
    ensures InSync(MouseUp(s, cursor))
    ensures Undo(MouseUp(s, cursor)).topology == s.topology
  {
  }

  lemma PlaceOnEmptyThenUndo()
    ensures var placed := MouseUp(Init(), Point(10, 10));
            && placed.topology == Topology([Point(10, 10)], [Obj(Position, [0], map[])])
            && Undo(placed).topology == Topology([], [])
  {
  }
}

=== FILE: renderer.dfy ===
/** The renderer: it maps scene points into viewport space and issues draw commands only for
    shapes that have a point inside the viewport. The canvas is modelled by the list of commands
    issued to it. */
module Renderer {
  import opened Types

  datatype Size = Size(width: int, height: int)

  /** The view a renderer draws through: the visible size, the scale, and the scene position of
      its origin. */
  datatype View = View(size: Size, scale: int, position: Point)

  /** The shapes a renderer is handed; `Other` stands for any shape that is neither a position nor
      a polyline. */
  datatype Shape =
    | PositionShape(point: Point, options: Options)
    | PolylineShape(points: seq<Point>, options: Options)
    | Other(options: Options)

  /** The draw calls the renderer makes. */
  datatype Command =
    | Circle(x: int, y: int, diameter: int, options: Options)
    | LinearPath(points: seq<Point>, options: Options)

  /** The diameter of a drawn position. */
  const PositionDiameter: int := 5

  /** `toViewport`: the offset from the view position, scaled. */
  function ToViewport(v: View, p: Point): Point {
    Point((p.x - v.position.x) * v.scale, (p.y - v.position.y) * v.scale)
  }

  /** The inverse transform, for a positive scale: back from viewport space to the scene. */
  function ToScene(v: View, q: Point): Point
    requires v.scale > 0
  {
    Point(q.x / v.scale + v.position.x, q.y / v.scale + v.position.y)
  }

  /** A positive multiple of a positive factor is at least the factor. */
  lemma MulAtLeast(e: int, k: int)
    requires e >= 1 && k > 0
    ensures e * k >= k
  {
  }

  /** Scaling by a positive factor and dividing by it gives the value back. */
  lemma MulDivCancel(d: int, k: int)
    requires k > 0
    ensures (d * k) / k == d
  {
    var q := (d * k) / k;
    var m := (d * k) % k;
    assert d * k == q * k + m && 0 <= m < k;
    var e := d - q;
    assert e * k == m;
    if e >= 1 {
      MulAtLeast(e, k);
    } else if e <= -1 {
      MulAtLeast(-e, k);
    }
  }

  /** Mapping into viewport space loses nothing at a positive scale, and the view position is the
      viewport origin. */
  lemma ToViewportInverse(v: View, p: Point)
    requires v.scale > 0
    ensures ToScene(v, ToViewport(v, p)) == p
    ensures ToViewport(v, v.position) == Point(0, 0)
  {
    MulDivCancel(p.x - v.position.x, v.scale);
    MulDivCancel(p.y - v.position.y, v.scale);
  }

  /** `isInViewport`: the transformed point lies in the closed box from the view position spanning
      the view size. */
  predicate IsInViewport(v: View, p: Point) {
    var q := ToViewport(v, p);
    v.position.x <= q.x <= v.position.x + v.size.width && v.position.y <= q.y <= v.position.y + v.size.height
  }

  /** `renderPosition`: one circle of diameter 5 at the transformed point when the point is in the
      viewport, nothing otherwise; the options go through unchanged. */
  function RenderPosition(v: View, point: Point, options: Options): (r: seq<Command>)
    ensures |r| == (if IsInViewport(v, point) then 1 else 0)
    ensures |r| == 1 ==> r[0] == Circle(ToViewport(v, point).x, ToViewport(v, point).y, PositionDiameter, options)
  {
    if IsInViewport(v, point) then
      [Circle(ToViewport(v, point).x, ToViewport(v, point).y, PositionDiameter, options)]
    else []
  }

  /** `points.some(isInViewport)`. */
  function AnyInViewport(v: View, points: seq<Point>): (r: bool)
    ensures r <==> exists i :: 0 <= i < |points| && IsInViewport(v, points[i])
  {
    if |points| == 0 then false
    else if IsInViewport(v, points[0]) then true
    else
      var rest := AnyInViewport(v, points[1..]);
      assert forall i :: 1 <= i < |points| ==> points[i] == points[1..][i - 1];
      rest
  }

  /** `points.map(toViewport)`. */
  function MapToViewport(v: View, points: seq<Point>): (r: seq<Point>)
    ensures |r| == |points|
    ensures forall i :: 0 <= i < |points| ==> r[i] == ToViewport(v, points[i])
  {
    seq(|points|, i requires 0 <= i < |points| => ToViewport(v, points[i]))
  }

  /** `renderPolyline`: one linear path through all transformed points, in order, exactly when
      some point is in the viewport; so an empty polyline draws nothing. */
  function RenderPolyline(v: View, points: seq<Point>, options: Options): (r: seq<Command>)
    ensures |r| <= 1
    ensures |r| == 1 <==> exists i :: 0 <= i < |points| && IsInViewport(v, points[i])
    ensures |r| == 1 ==> r[0].LinearPath? && r[0].options == options && |r[0].points| == |points|
                         && forall i :: 0 <= i < |points| ==> r[0].points[i] == ToViewport(v, points[i])
  {
    if AnyInViewport(v, points) then [LinearPath(MapToViewport(v, points), options)] else []
  }

  /** `render`: positions and polylines go to their renderers; any other shape draws nothing. */
  function Render(v: View, shape: Shape): (r: seq<Command>)
    ensures shape.PositionShape? ==> r == RenderPosition(v, shape.point, shape.options)
    ensures shape.PolylineShape? ==> r == RenderPolyline(v, shape.points, shape.options)
    ensures shape.Other? ==> r == []
    ensures forall i :: 0 <= i < |r| ==> r[i].options == shape.options
  {
    match shape
    case PositionShape(p, o) => RenderPosition(v, p, o)
    case PolylineShape(ps, o) => RenderPolyline(v, ps, o)
    case Other(_) => []
  }

  /** A polyline is drawn exactly when at least one of its points, drawn as a position, would be. */
  lemma {:induction false} PolylineDrawnIffSomePositionDrawn(v: View, points: seq<Point>, options: Options)
    ensures |RenderPolyline(v, points, options)| == 1
            <==> exists i :: 0 <= i < |points| && |RenderPosition(v, points[i], options)| == 1
  {
  }
}

=== FILE: select_strategy.dfy ===
/** The select tool: moving hovers the first object under the cursor and, during a drag, moves
    the dragged point; pressing on the selected object starts a drag from the first of its points
    near the cursor; releasing selects the hovered object and ends a drag with one step; Delete and
    Backspace delete the selected object with one step. */
module SelectStrategy {
  import opened Types
  import opened State
  import Utils

  /** `hovered`: the object under the cursor; `dragging`: the index of the point being dragged.
      Both are -1 when there is none. */
  datatype SelectState = SelectState(hovered: int, dragging: int)

  function Init(): SelectState {
    SelectState(-1, -1)
  }

  /** A position is hovered strictly within this distance of its point. */
  const HoverRadius: nat := 5

  /** A drag starts from a point strictly within this distance of the cursor. */
  const GrabRadius: nat := 10

  /** `o.points.map((i) => points[i])`: the coordinates of an object, `undefined` for a bad index. */
  function Coords(points: seq<Point>, indices: seq<int>): (r: seq<Option<Point>>)
    ensures |r| == |indices|
    ensures forall k :: 0 <= k < |indices| ==> r[k] == Lookup(points, indices[k])
  {
    seq(|indices|, k requires 0 <= k < |indices| => Lookup(points, indices[k]))
  }

  /** The hover test of one object: `None` when it throws (a position whose first coordinate is
      `undefined`), otherwise whether the cursor is on the object. Arcs are decided by `near`, the
      polyline proximity test this model leaves uninterpreted. */
  function Hit(points: seq<Point>, o: Obj, cursor: Point, near: (Point, seq<Option<Point>>) -> bool)
    : (r: Option<bool>)
    ensures o.kind == Arc ==> r == Some(near(cursor, Coords(points, o.points)))
    ensures o.kind == Position ==>
              (r.None? <==> |o.points| == 0 || !(0 <= o.points[0] < |points|))
              && (r.Some? ==> r.value == Utils.Within(cursor, points[o.points[0]], HoverRadius))
  {
    var coords := Coords(points, o.points);
    match o.kind
    case Position =>
      if |coords| == 0 || coords[0].None? then None
      else Some(Utils.Within(cursor, coords[0].value, HoverRadius))
    case Arc => Some(near(cursor, coords))
  }

  /** The hover search over all objects. */
  function HitTest(t: Topology, cursor: Point, near: (Point, seq<Option<Point>>) -> bool)
    : Utils.SearchResult
  {
    Utils.Search(t.objects, o => Hit(t.points, o, cursor, near))
  }

  /** The hovered object a search settles on. */
  function Hovered(found: Utils.SearchResult): int {
    if found.Hit? then found.index else -1
  }

  /** `mouseMove`. A hover test that throws stops the handler before anything changes. Otherwise
      `hovered` becomes the first object hit (or -1), the cursor shows the pointer exactly when
      something is hovered, and during a drag the dragged point, and only it, moves to the cursor
      without a commit. A drag index outside the points fails and leaves the points as they are. */
  function MouseMove(s: AppState, sel: SelectState, cursor: Point,
                     near: (Point, seq<Option<Point>>) -> bool): (r: Step<SelectState>)
    ensures r.app.topology.objects == s.topology.objects
    ensures r.app.history.index == s.history.index
    ensures r.app.history.stack[..s.history.index] == s.history.stack[..s.history.index]
    ensures r.app.selected == s.selected && r.app.viewport == s.viewport && r.app.zoom == s.zoom
    ensures r.tool.dragging == sel.dragging
    ensures HitTest(s.topology, cursor, near).Threw? ==> r == Step(s, sel, true)
    ensures !HitTest(s.topology, cursor, near).Threw? ==>
              && (r.tool.hovered == -1 ==>
                    forall o :: 0 <= o < |s.topology.objects| ==>
                      Hit(s.topology.points, s.topology.objects[o], cursor, near) == Some(false))
              && (r.tool.hovered != -1 ==>
                    && 0 <= r.tool.hovered < |s.topology.objects|
                    && Hit(s.topology.points, s.topology.objects[r.tool.hovered], cursor, near) == Some(true)
                    && forall o :: 0 <= o < r.tool.hovered ==>
                         Hit(s.topology.points, s.topology.objects[o], cursor, near) == Some(false))
              && r.app.cursor == s.cursor.(kind := if r.tool.hovered == -1 then Auto else Pointer)
              && (r.failed <==> sel.dragging != -1 && !(0 <= sel.dragging < |s.topology.points|))
              && (sel.dragging != -1 && !r.failed ==>
                    r.app.topology.points == s.topology.points[sel.dragging := cursor])
              && (sel.dragging == -1 || r.failed ==>
                    r.app.topology == s.topology && r.app.history == s.history)
    ensures Valid(s.topology) ==> Valid(r.app.topology)
  {
    var found := HitTest(s.topology, cursor, near);
    if found.Threw? then Step(s, sel, true)
    else
      var hovered := Hovered(found);
      var pointed := s.(cursor := s.cursor.(kind := if hovered == -1 then Auto else Pointer));
      var tool := sel.(hovered := hovered);
      if sel.dragging == -1 then Step(pointed, tool, false)
      else if 0 <= sel.dragging < |s.topology.points| then
        Step(WritePoints(pointed, s.topology.points[sel.dragging := cursor]), tool, false)
      else Step(pointed, tool, true)
  }

  /** `mouseUp`: the hovered object becomes the selection; a drag in progress ends with one commit. */
  function MouseUp(s: AppState, sel: SelectState): (r: Step<SelectState>)
    ensures !r.failed && r.tool == sel.(dragging := -1)
    ensures r.app.selected == sel.hovered
    ensures r.app.topology == s.topology
    ensures sel.dragging != -1 ==> r.app == Commit(s).(selected := sel.hovered)
    ensures sel.dragging == -1 ==> r.app == s.(selected := sel.hovered)
  {
    var chosen := s.(selected := sel.hovered);
    if sel.dragging != -1 then Step(Commit(chosen), sel.(dragging := -1), false)
    else Step(chosen, sel, false)
  }

  /** The grab test of one index of the selected object: `None` when it throws (the index names no
      point), otherwise whether that point is near the cursor. */
  function Grabs(points: seq<Point>, i: int, cursor: Point): (r: Option<bool>)
    ensures r.None? <==> !(0 <= i < |points|)
    ensures r.Some? ==> r.value == Utils.Within(points[i], cursor, GrabRadius)
  {
    match Lookup(points, i)
    case None => None
    case Some(p) => Some(Utils.Within(p, cursor, GrabRadius))
  }

  /** Index `k` of the selected object names a point near the cursor. */
  predicate Grabbed(points: seq<Point>, idx: seq<int>, cursor: Point, k: int) {
    0 <= k < |idx| && 0 <= idx[k] < |points| && Utils.Within(points[idx[k]], cursor, GrabRadius)
  }

  /** Index `k` of the selected object names a point, and it is not near the cursor. */
  predicate Passed(points: seq<Point>, idx: seq<int>, cursor: Point, k: int) {
    0 <= k < |idx| && 0 <= idx[k] < |points| && !Utils.Within(points[idx[k]], cursor, GrabRadius)
  }

  /** `mouseDown`. Only with a selection and no drag in progress does anything happen: reading a
      selected index that names no object fails, as does a grab test on a bad point index; otherwise
      `dragging` becomes the first point index of the selected object whose point is near the
      cursor, or -1. The shared state is never changed. */
  function MouseDown(s: AppState, sel: SelectState, cursor: Point): (r: Step<SelectState>)
    ensures r.app == s && r.tool.hovered == sel.hovered
    ensures !(s.selected != -1 && sel.dragging == -1) ==> r == Step(s, sel, false)
    ensures s.selected != -1 && sel.dragging == -1 && !(0 <= s.selected < |s.topology.objects|) ==>
              r == Step(s, sel, true)
    ensures s.selected != -1 && sel.dragging == -1 && 0 <= s.selected < |s.topology.objects| ==>
              var ps := s.topology.points;
              var idx := s.topology.objects[s.selected].points;
              && (r.failed ==> r.tool == sel)
              && (r.failed ==> exists k :: 0 <= k < |idx| && !(0 <= idx[k] < |ps|)
                                 && forall m :: 0 <= m < k ==> Passed(ps, idx, cursor, m))
              && (!r.failed && r.tool.dragging != -1 ==>
                    exists k :: Grabbed(ps, idx, cursor, k) && idx[k] == r.tool.dragging
                      && forall m :: 0 <= m < k ==> Passed(ps, idx, cursor, m))
              && (!r.failed && r.tool.dragging == -1 ==>
                    forall k :: 0 <= k < |idx| ==> Passed(ps, idx, cursor, k))
  {
    if s.selected != -1 && sel.dragging == -1 then
      if !(0 <= s.selected < |s.topology.objects|) then Step(s, sel, true)
      else
        var ps := s.topology.points;
        var idx := s.topology.objects[s.selected].points;
        match Utils.Search(idx, i => Grabs(ps, i, cursor))
        case Threw(k) =>
          assert forall m :: 0 <= m < k ==> Passed(ps, idx, cursor, m);
          Step(s, sel, true)
        case Hit(k) =>
          assert Grabbed(ps, idx, cursor, k);
          assert forall m :: 0 <= m < k ==> Passed(ps, idx, cursor, m);
          Step(s, sel.(dragging := idx[k]), false)
        case Miss =>
          assert forall m :: 0 <= m < |idx| ==> Passed(ps, idx, cursor, m);
          Step(s, sel.(dragging := -1), false)
    else Step(s, sel, false)
  }

  /** The keys that delete the selection. */
  predicate IsDeleteKey(key: string) {
    key == "Delete" || key == "Backspace"
  }

  /** `keyDown`: Delete or Backspace with a selection deletes the selected object and commits one
      step, keeping `selected` as it was; any other key, or no selection, changes nothing. */
  function KeyDown(s: AppState, sel: SelectState, key: string, del: (Topology, int) -> Topology)
    : (r: Step<SelectState>)
    ensures !r.failed && r.tool == sel
    ensures IsDeleteKey(key) && s.selected != -1 ==>
              && r.app.topology == del(s.topology, s.selected)
              && r.app.selected == s.selected
              && r.app.history.index == s.history.index + 1
              && r.app == s.(topology := r.app.topology, history := r.app.history)
    ensures !(IsDeleteKey(key) && s.selected != -1) ==> r.app == s
  {
    if IsDeleteKey(key) && s.selected != -1 then
      Step(Commit(Delete(s, del, s.selected)), sel, false)
    else Step(s, sel, false)
  }

  /** When the topology is valid and every position has a point, the hover test cannot throw, so
      moving fails only for a drag index outside the points. */
  lemma HoverNeverThrowsOnValid(t: Topology, cursor: Point, near: (Point, seq<Option<Point>>) -> bool)
    requires Valid(t)
    requires forall o :: 0 <= o < |t.objects| && t.objects[o].kind == Position ==> |t.objects[o].points| > 0
    ensures !HitTest(t, cursor, near).Threw?
  {
  }

  /** A drag: moving with a drag in progress and releasing moves exactly the dragged point to the
      cursor and commits one step; from a synchronised history, undo then puts the point back. */
  lemma DragThenUndo(s: AppState, sel: SelectState, cursor: Point, near: (Point, seq<Option<Point>>) -> bool)
    requires InSync(s)
    requires 0 <= sel.dragging < |s.topology.points|
    requires !HitTest(s.topology, cursor, near).Threw?
    ensures var moved := MouseMove(s, sel, cursor, near);
            var up := MouseUp(moved.app, moved.tool);
            && !moved.failed && up.tool.dragging == -1
            && up.app.topology == s.topology.(points := s.topology.points[sel.dragging := cursor])
            && up.app.history.index == s.history.index + 1
            && Undo(up.app).topology == s.topology
  {
  }

  /** Deleting the selection and undoing restores the topology from before the delete. */
  lemma DeleteThenUndo(s: AppState, sel: SelectState, key: string, del: (Topology, int) -> Topology)
    requires InSync(s) && IsDeleteKey(key) && s.selected != -1
    ensures var r := KeyDown(s, sel, key, del);
            && r.app.topology == del(s.topology, s.selected)
            && Undo(r.app).topology == s.topology
  {
  }

  /** Pressing exactly on the first point of the selected object starts dragging that point. */
  lemma PressOnFirstPointStartsDrag(s: AppState, sel: SelectState)
    requires sel.dragging == -1 && 0 <= s.selected < |s.topology.objects|
    requires var idx := s.topology.objects[s.selected].points;
             |idx| > 0 && 0 <= idx[0] < |s.topology.points|
    ensures var idx := s.topology.objects[s.selected].points;
            var r := MouseDown(s, sel, s.topology.points[idx[0]]);
            !r.failed && r.tool.dragging == idx[0]
  {
  }
}

=== FILE: shape_storage.dfy ===
/** The shapes storage of the newer logic layer: a point sequence and shapes that refer to points by
    index. Both operations only append; a polyline always gets points of its own. */
module ShapeStorage {
  import opened Types

  /** A stored shape: a circle refers to one point, a polyline to a list of points. */
  datatype Shape = Circle(point: int, options: Options) | Polyline(points: seq<int>, options: Options)

  datatype Storage = Storage(points: seq<Point>, objects: seq<Shape>)

  /** The indices a shape refers to. */
  function Refs(sh: Shape): seq<int> {
    match sh
    case Circle(p, _) => [p]
    case Polyline(ps, _) => ps
  }

  /** Every index referenced by a stored shape names a stored point. */
  predicate Valid(st: Storage) {
    forall i :: 0 <= i < |st.objects| ==> IndicesIn(Refs(st.objects[i]), |st.points|)
  }

  /** The storage `createShapesStorage` starts with. */
  function Empty(): (st: Storage)
    ensures |st.points| == 0 && |st.objects| == 0
    ensures Valid(st)
  {
    Storage([], [])
  }

  /** The consecutive indices `start`, `start + 1`, ..., `start + n - 1`. */
  function Span(start: int, n: nat): (r: seq<int>)
    ensures |r| == n
    ensures forall k :: 0 <= k < n ==> r[k] == start + k
  {
    seq(n, k requires 0 <= k < n => start + k)
  }

  /** `addPosition`: one point appended, and one circle referring to it by the old point count. */
  function AddPosition(st: Storage, p: Point, options: Options): (r: Storage)
    ensures r.points == st.points + [p]
    ensures r.objects == st.objects + [Circle(|st.points|, options)]
    ensures Valid(st) ==> Valid(r)
  {
    var r := Storage(st.points + [p], st.objects + [Circle(|st.points|, options)]);
    assert forall i :: 0 <= i < |st.objects| ==> r.objects[i] == st.objects[i];
    r
  }

  /** `addPolyline`: every input point is pushed in order and its push position collected; one
      polyline with the collected indices is appended. */
  method AddPolyline(st: Storage, pts: seq<Point>, options: Options) returns (r: Storage)
    ensures r.points == st.points + pts
    ensures r.objects == st.objects + [Polyline(Span(|st.points|, |pts|), options)]
  {
    var points := st.points;
    var indices: seq<int> := [];
    var i := 0;
    while i < |pts|
      invariant 0 <= i <= |pts|
      invariant points == st.points + pts[..i]
      invariant indices == Span(|st.points|, i)
    {
      points := points + [pts[i]];
      indices := indices + [|points| - 1];
      assert pts[..i + 1] == pts[..i] + [pts[i]];
      i := i + 1;
    }
    assert pts[..i] == pts;
    r := Storage(points, st.objects + [Polyline(indices, options)]);
  }

  /** In a valid storage, the indices a new polyline receives are referenced by no earlier shape,
      and after the addition every index is still valid. */
  lemma PolylineIsFresh(st: Storage, pts: seq<Point>, options: Options, r: Storage)
    requires Valid(st)
    requires r.points == st.points + pts
    requires r.objects == st.objects + [Polyline(Span(|st.points|, |pts|), options)]
    ensures forall i, k, m :: 0 <= i < |st.objects| && 0 <= k < |Refs(st.objects[i])| && 0 <= m < |pts| ==>
              Refs(st.objects[i])[k] != Span(|st.points|, |pts|)[m]
    ensures Valid(r)
  {
  }

  /** Two polylines added one after the other refer to disjoint, consecutive index ranges. */
  method AddTwoPolylines(st: Storage, a: seq<Point>, b: seq<Point>, options: Options) returns (r: Storage)
    ensures r.points == st.points + a + b
    ensures |r.objects| == |st.objects| + 2
    ensures Refs(r.objects[|st.objects|]) == Span(|st.points|, |a|)
    ensures Refs(r.objects[|st.objects| + 1]) == Span(|st.points| + |a|, |b|)
    ensures Valid(st) ==> Valid(r)
  {
    var mid := AddPolyline(st, a, options);
    if Valid(st) {
      PolylineIsFresh(st, a, options, mid);
    }
    r := AddPolyline(mid, b, options);
    if Valid(mid) {
      PolylineIsFresh(mid, b, options, r);
    }
  }
}

=== FILE: snapshot_history.dfy ===
/** The snapshot-stack history: every `push` stores a full snapshot, `undo`/`redo` move a
    clamped index over the stack and re-apply the snapshot under it. */
module SnapshotHistory {

  /** The published `{ last, first }` state. */
  datatype Flags = Flags(last: bool, first: bool)

  datatype History<T> = History(stack: seq<T>, index: int, state: Flags)

  /** The class invariant: the index names a stored snapshot and the published flags describe it. */
  predicate Inv<T>(h: History<T>) {
    && 0 <= h.index < |h.stack|
    && h.state == Flags(h.index == |h.stack| - 1, h.index == 0)
  }

  /** `#update`: recompute the published flags from the index. */
  function Refresh<T>(h: History<T>): (r: History<T>)
    requires 0 <= h.index < |h.stack|
    ensures Inv(r) && r.stack == h.stack && r.index == h.index
  {
    h.(state := Flags(h.index == |h.stack| - 1, h.index == 0))
  }

  /** The constructor: one snapshot of the initial state, at index 0. */
  function Create<T>(snapshot: T): (h: History<T>)
    ensures Inv(h)
    ensures h.stack == [snapshot] && h.index == 0
    ensures h.state.first && h.state.last
  {
    History([snapshot], 0, Flags(true, true))
  }

  /** `current()`. */
  function Current<T>(h: History<T>): T
    requires Inv(h)
  {
    h.stack[h.index]
  }

  /** `push`: the entries after the index are dropped and the new snapshot becomes current. */
  function Push<T>(h: History<T>, snapshot: T): (r: History<T>)
    requires Inv(h)
    ensures Inv(r)
    ensures r.index == h.index + 1 && |r.stack| == h.index + 2
    ensures r.stack[..h.index + 1] == h.stack[..h.index + 1]
    ensures r.stack[r.index] == snapshot
    ensures r.state.last && !r.state.first
  {
    var index := h.index + 1;
    Refresh(History(h.stack[..index] + [snapshot], index, h.state))
  }

  /** `undo`: step back unless at the first entry, and return the snapshot to apply. */
  function Undo<T>(h: History<T>): (r: (History<T>, T))
    requires Inv(h)
    ensures Inv(r.0) && r.0.stack == h.stack
    ensures r.0.index == (if h.index > 0 then h.index - 1 else 0)
    ensures r.1 == h.stack[r.0.index]
  {
    var index := if h.index - 1 > 0 then h.index - 1 else 0;
    var r := Refresh(h.(index := index));
    (r, Current(r))
  }

  /** `redo`: step forward unless at the last entry, and return the snapshot to apply. */
  function Redo<T>(h: History<T>): (r: (History<T>, T))
    requires Inv(h)
    ensures Inv(r.0) && r.0.stack == h.stack
    ensures r.0.index == (if h.index < |h.stack| - 1 then h.index + 1 else |h.stack| - 1)
    ensures r.1 == h.stack[r.0.index]
  {
    var index := if |h.stack| - 1 < h.index + 1 then |h.stack| - 1 else h.index + 1;
    var r := Refresh(h.(index := index));
    (r, Current(r))
  }

  /** `reversible(fn)`: run the edit on the current world, then push exactly one snapshot of the result. */
  function Reversible<S>(h: History<S>, world: S, edit: S -> S): (r: (S, History<S>))
    requires Inv(h)
    ensures r.0 == edit(world)
    ensures Inv(r.1) && r.1.index == h.index + 1
    ensures r.1.stack == h.stack[..h.index + 1] + [edit(world)]
  {
    var after := edit(world);
    var pushed := Push(h, after);
    assert pushed.stack == h.stack[..h.index + 1] + [after];
    (after, pushed)
  }

  /** Undo followed by redo from a non-first entry returns to the same index and snapshot. */
  lemma UndoThenRedo<T>(h: History<T>)
    requires Inv(h) && h.index > 0
    ensures var u := Undo(h).0;
            Redo(u).0 == h && Redo(u).1 == Current(h)
  {
  }

  /** Undo right after a push re-applies the snapshot that was current before the push. */
  lemma PushThenUndo<T>(h: History<T>, snapshot: T)
    requires Inv(h)
    ensures Undo(Push(h, snapshot)).1 == Current(h)
    ensures Undo(Push(h, snapshot)).0.index == h.index
  {
  }

  /** A push after an undo discards the undone entry: redo then stays on the new snapshot. */
  lemma PushAfterUndoDropsRedo<T>(h: History<T>, snapshot: T)
    requires Inv(h) && h.index > 0
    ensures var p := Push(Undo(h).0, snapshot);
            p.state.last && Redo(p).0 == p && Redo(p).1 == snapshot
  {
  }
}

=== FILE: state.dfy ===
/** The editor's shared state: the tracked topology stores, the history that tracks them, the
    cursor, the selection, the viewport and the zoom. Every write of the points or objects store
    goes through the history's subscription. */
module State {
  import opened Types
  import CommitHistory

  /** The cursor CSS values the tools set, as an enumeration. */
  datatype CursorType = Auto | Pointer | Grab | Grabbing | Move | Crosshair

  datatype Cursor = Cursor(kind: CursorType, position: Point)

  datatype Viewport = Viewport(x: int, y: int, width: int, height: int)

  /** The value of one tracked store: store 0 holds the points, store 1 the objects. */
  datatype StoreValue = PointsValue(points: seq<Point>) | ObjectsValue(objects: seq<Obj>)

  const PointsStore: nat := 0
  const ObjectsStore: nat := 1

  /** The tracked store values of a topology, in tracking order. */
  function Stores(t: Topology): seq<StoreValue> {
    [PointsValue(t.points), ObjectsValue(t.objects)]
  }

  /** A version that restores both stores to well-typed values. */
  predicate Restorable(slot: CommitHistory.Version<StoreValue>) {
    && |slot| == 2
    && slot[0].Some? && slot[0].value.PointsValue?
    && slot[1].Some? && slot[1].value.ObjectsValue?
  }

  predicate TrackedOk(h: CommitHistory.History<StoreValue>) {
    && CommitHistory.Inv(h)
    && h.width == 2
    && forall i :: 0 <= i < |h.stack| && h.stack[i].Some? ==> Restorable(h.stack[i].value)
  }

  /** The history of the two tracked stores, kept restorable by the corrected recording. */
  type Tracked = h: CommitHistory.History<StoreValue> | TrackedOk(h)
    witness CommitHistory.History(1, [Some([Some(PointsValue([])), Some(ObjectsValue([]))])], 2,
                                  true, CommitHistory.Flags(false, false))

  datatype AppState = AppState(topology: Topology, history: Tracked, cursor: Cursor, selected: int,
                               viewport: Viewport, zoom: int)

  /** The result of one tool handler: the new shared state, the tool's own state, and whether the
      handler stopped with a TypeError (the writes made before it stay in `app`). */
  datatype Step<L> = Step(app: AppState, tool: L, failed: bool)

  /** The state at start-up: an empty topology, zoom 1, nothing selected. */
  function Init(): (s: AppState)
    ensures s.topology == Topology([], []) && s.zoom == 1 && s.selected == -1
    ensures s.history.index == 1 && s.history.stack == [Some(CommitHistory.Snapshot(Stores(s.topology)))]
    ensures InSync(s)
  {
    var t := Topology([], []);
    AppState(t, CommitHistory.Create(Stores(t)), Cursor(Auto, Point(0, 0)), -1, Viewport(0, 0, 0, 0), 1)
  }

  /** The history has no pending slot and its restorable version is exactly the current topology. */
  predicate InSync(s: AppState) {
    && s.history.index == |s.history.stack|
    && s.history.stack[s.history.index - 1] == Some(CommitHistory.Snapshot(Stores(s.topology)))
  }

  /** The tracked write of store `storeIdx`, with the corrected slot creation. */
  function Record(h: Tracked, storeIdx: nat, v: StoreValue, t: Topology): (r: Tracked)
    requires storeIdx < 2
    requires storeIdx == PointsStore ==> v.PointsValue?
    requires storeIdx == ObjectsStore ==> v.ObjectsValue?
    ensures r.index == h.index && r.state == h.state
    ensures r.stack[..h.index] == h.stack[..h.index]
    ensures CommitHistory.Pending(r).Some? && CommitHistory.Pending(r).value[storeIdx] == Some(v)
    ensures forall k :: 0 <= k < 2 && k != storeIdx ==>
              CommitHistory.Pending(r).value[k]
                == (if CommitHistory.Pending(h).Some? then CommitHistory.Pending(h).value[k]
                    else Some(Stores(t)[k]))
  {
    var r := CommitHistory.RecordFilled(h, storeIdx, v, Stores(t));
    assert CommitHistory.Pending(r) == r.stack[h.index];
    forall i | 0 <= i < |r.stack| && r.stack[i].Some?
      ensures Restorable(r.stack[i].value)
    {
      if i == h.index && CommitHistory.Pending(h).Some? {
        assert CommitHistory.Pending(h) == h.stack[h.index];
      }
    }
    assert r.stack[..h.index] == h.stack[..h.index];
    r
  }

  /** `points.set(ps)`: only the points change, and the write lands in the pending slot. */
  function WritePoints(s: AppState, ps: seq<Point>): (r: AppState)
    ensures r == s.(topology := s.topology.(points := ps), history := r.history)
    ensures r.history.index == s.history.index && r.history.state == s.history.state
    ensures r.history.stack[..s.history.index] == s.history.stack[..s.history.index]
    ensures CommitHistory.Pending(r.history).Some?
    ensures CommitHistory.Pending(r.history).value[PointsStore] == Some(PointsValue(ps))
    ensures CommitHistory.Pending(r.history).value[ObjectsStore]
              == (if CommitHistory.Pending(s.history).Some?
                  then CommitHistory.Pending(s.history).value[ObjectsStore]
                  else Some(ObjectsValue(s.topology.objects)))
  {
    s.(topology := s.topology.(points := ps),
       history := Record(s.history, PointsStore, PointsValue(ps), s.topology))
  }

  /** `objects.set(os)`: only the objects change, and the write lands in the pending slot. */
  function WriteObjects(s: AppState, os: seq<Obj>): (r: AppState)
    ensures r == s.(topology := s.topology.(objects := os), history := r.history)
    ensures r.history.index == s.history.index && r.history.state == s.history.state
    ensures r.history.stack[..s.history.index] == s.history.stack[..s.history.index]
    ensures CommitHistory.Pending(r.history).Some?
    ensures CommitHistory.Pending(r.history).value[ObjectsStore] == Some(ObjectsValue(os))
    ensures CommitHistory.Pending(r.history).value[PointsStore]
              == (if CommitHistory.Pending(s.history).Some?
                  then CommitHistory.Pending(s.history).value[PointsStore]
                  else Some(PointsValue(s.topology.points)))
  {
    s.(topology := s.topology.(objects := os),
       history := Record(s.history, ObjectsStore, ObjectsValue(os), s.topology))
  }

  /** A topology edit that sets both stores, points first. */
  function WriteTopology(s: AppState, t: Topology): (r: AppState)
    ensures r == s.(topology := t, history := r.history)
    ensures r.history.index == s.history.index
    ensures r.history.stack[..s.history.index] == s.history.stack[..s.history.index]
    ensures CommitHistory.Pending(r.history) == Some(CommitHistory.Snapshot(Stores(t)))
  {
    var r := WriteObjects(WritePoints(s, t.points), t.objects);
    assert CommitHistory.Pending(r.history).value == CommitHistory.Snapshot(Stores(t));
    r
  }

  /** `deleteObject(index)`: an edit this model does not see into, given as `del`; it writes both stores. */
  function Delete(s: AppState, del: (Topology, int) -> Topology, index: int): (r: AppState)
    ensures r.topology == del(s.topology, index)
    ensures r == s.(topology := r.topology, history := r.history)
    ensures r.history.index == s.history.index
  {
    WriteTopology(s, del(s.topology, index))
  }

  /** `history.commit()`: the pending slot becomes the step undo returns to later. */
  function Commit(s: AppState): (r: AppState)
    ensures r == s.(history := r.history)
    ensures r.history.index == s.history.index + 1 && |r.history.stack| == r.history.index
    ensures r.history.stack[..s.history.index] == s.history.stack[..s.history.index]
    ensures r.history.stack[s.history.index] == CommitHistory.Pending(s.history)
  {
    var h := CommitHistory.Commit(s.history);
    forall i | 0 <= i < |h.stack| && h.stack[i].Some?
      ensures Restorable(h.stack[i].value)
    {
      if i < s.history.index {
        assert h.stack[i] == h.stack[..s.history.index][i];
      } else {
        assert CommitHistory.Pending(s.history) == s.history.stack[i];
      }
    }
    s.(history := h)
  }

  /** Sets the tracked stores from a restored version; a missing version changes nothing. */
  function Restore(version: Option<CommitHistory.Version<StoreValue>>, t: Topology): (r: Topology)
    requires version.Some? ==> Restorable(version.value)
    ensures version.None? ==> r == t
    ensures version.Some? ==> version.value == CommitHistory.Snapshot(Stores(r))
  {
    match version
    case None => t
    case Some(v) =>
      var r := Topology(v[0].value.points, v[1].value.objects);
      assert v == CommitHistory.Snapshot(Stores(r));
      r
  }

  /** `history.undo`: the index steps back (not below 1) and the topology is restored from the
      version now under it; applying it records nothing. */
  function Undo(s: AppState): (r: AppState)
    ensures r == s.(topology := r.topology, history := r.history)
    ensures r.history.stack == s.history.stack
    ensures r.history.index == (if s.history.index > 1 then s.history.index - 1 else s.history.index)
    ensures var v := r.history.stack[r.history.index - 1];
            (v.None? ==> r.topology == s.topology)
            && (v.Some? ==> v.value == CommitHistory.Snapshot(Stores(r.topology)))
  {
    var (h, version) := CommitHistory.Undo(s.history);
    s.(topology := Restore(version, s.topology), history := h)
  }

  /** `history.redo`: the index steps forward only while below `|stack| - 1`, then restores. */
  function Redo(s: AppState): (r: AppState)
    ensures r == s.(topology := r.topology, history := r.history)
    ensures r.history.stack == s.history.stack
    ensures r.history.index == (if s.history.index < |s.history.stack| - 1 then s.history.index + 1
                                else s.history.index)
    ensures var v := r.history.stack[r.history.index - 1];
            (v.None? ==> r.topology == s.topology)
            && (v.Some? ==> v.value == CommitHistory.Snapshot(Stores(r.topology)))
  {
    var (h, version) := CommitHistory.Redo(s.history);
    s.(topology := Restore(version, s.topology), history := h)
  }

  /** Two topologies with the same snapshot are equal: a restore is exact. */
  lemma SnapshotInjective(a: Topology, b: Topology)
    requires CommitHistory.Snapshot(Stores(a)) == CommitHistory.Snapshot(Stores(b))
    ensures a == b
  {
    assert CommitHistory.Snapshot(Stores(a))[0] == Some(PointsValue(a.points));
    assert CommitHistory.Snapshot(Stores(a))[1] == Some(ObjectsValue(a.objects));
  }

  /** The version undo would restore next is exactly the current topology: true at start-up, in a
      synchronised state, and right after a restore of a present version. */
  predicate AtRestorePoint(s: AppState) {
    s.history.stack[s.history.index - 1] == Some(CommitHistory.Snapshot(Stores(s.topology)))
  }

  /** Whatever a step wrote, if it kept the versions below the index and committed once, undo
      gives back the topology of a restore point. */
  lemma StepThenUndo(s: AppState, r: AppState)
    requires AtRestorePoint(s)
    requires r.history.index == s.history.index + 1
    requires r.history.stack[..s.history.index] == s.history.stack[..s.history.index]
    ensures Undo(r).topology == s.topology
  {
  }

  /** From a synchronised state, a write of the points alone followed by a commit, then undo,
      restores exactly the topology before the write. */
  lemma PointsEditCommitUndo(s: AppState, ps: seq<Point>)
    requires InSync(s)
    ensures var done := Commit(WritePoints(s, ps));
            InSync(done) && done.topology == s.topology.(points := ps)
            && Undo(done).topology == s.topology
  {
    var w := WritePoints(s, ps);
    var i := s.history.index;
    assert CommitHistory.Pending(w.history).value == CommitHistory.Snapshot(Stores(w.topology));
    var done := Commit(w);
    assert done.history.stack[i - 1] == done.history.stack[..i][i - 1] == s.history.stack[i - 1];
    var u := Undo(done);
    assert u.history.index == i;
    SnapshotInjective(u.topology, s.topology);
  }

  /** From a synchronised state, an edit of both stores followed by a commit, then undo, restores
      exactly the topology before the edit; redo cannot bring the edit back. */
  lemma EditCommitUndo(s: AppState, t: Topology)
    requires InSync(s)
    ensures var done := Commit(WriteTopology(s, t));
            InSync(done) && done.topology == t
            && Undo(done).topology == s.topology
            && Redo(Undo(done)).topology == s.topology
  {
  }
}

=== FILE: types.dfy ===
/** Value types shared by the topology, the history engines, the tools and the renderer
    (the record declarations of the editor: points, objects, drawing options). */
module Types {

  /** The JavaScript `undefined`-or-value. */
  datatype Option<T> = None | Some(value: T)

  /** A scene coordinate. The editor rounds the cursor before any use, so coordinates are integers. */
  datatype Point = Point(x: int, y: int)

  /** The `type` discriminant of a topology object. */
  datatype Kind = Arc | Position

  /** A topology object: it refers to points by their index in the topology's point sequence. */
  datatype Obj = Obj(kind: Kind, points: seq<int>, properties: map<string, string>)

  /** The diagram document: a shared point sequence and the objects that refer into it. */
  datatype Topology = Topology(points: seq<Point>, objects: seq<Obj>)

  /** Drawing options handed to the drawing backend; every field is optional. */
  datatype Options = Options(fill: Option<string>, fillStyle: Option<string>,
                             stroke: Option<string>, strokeWidth: Option<int>)

  /** Every index in `idx` names one of `n` points. */
  predicate IndicesIn(idx: seq<int>, n: int) {
    forall k :: 0 <= k < |idx| ==> 0 <= idx[k] < n
  }

  /** The topology invariant: every index referenced by any object is a valid index into `points`. */
  predicate Valid(t: Topology) {
    forall i :: 0 <= i < |t.objects| ==> IndicesIn(t.objects[i].points, |t.points|)
  }

  /** `points[i]` in JavaScript: `undefined` outside the sequence. */
  function Lookup(points: seq<Point>, i: int): (r: Option<Point>)
    ensures r.Some? <==> 0 <= i < |points|
    ensures r.Some? ==> r.value == points[i]
  {
    if 0 <= i < |points| then Some(points[i]) else None
  }
}

=== FILE: utils.dfy ===
/** Numeric helpers and the two array searches the editor relies on. */
module Utils {
  import opened Types

  function Min(a: int, b: int): int { if a <= b then a else b }
  function Max(a: int, b: int): int { if a >= b then a else b }

  /** `clamp(value, min, max)`, written as `Math.min(Math.max(min, value), max)`. */
  function Clamp(value: int, lo: int, hi: int): (r: int)
    ensures lo <= hi ==> lo <= r <= hi
    ensures lo <= value <= hi ==> r == value
    ensures value < lo && lo <= hi ==> r == lo
    ensures value > hi ==> r == hi
    ensures lo > hi ==> r == hi
  {
    Min(Max(lo, value), hi)
  }

  /** Clamping an already clamped value changes nothing. */
  lemma ClampIdempotent(value: int, lo: int, hi: int)
    ensures Clamp(Clamp(value, lo, hi), lo, hi) == Clamp(value, lo, hi)
  {
  }

  /** `Math.sign` on an integer. */
  function Sign(d: int): (r: int)
    ensures d > 0 ==> r == 1
    ensures d < 0 ==> r == -1
    ensures d == 0 ==> r == 0
  {
    if d > 0 then 1 else if d < 0 then -1 else 0
  }

  /** The square of `distance(from, to)`; `distance(a, b) < r` is `Distance2(a, b) < r * r`. */
  function Distance2(from: Point, to: Point): (r: int)
    ensures r >= 0
    ensures r == 0 <==> from == to
  {
    var dx := to.x - from.x;
    var dy := to.y - from.y;
    assert dx * dx >= 0 && dy * dy >= 0;
    assert dx != 0 ==> dx * dx > 0;
    assert dy != 0 ==> dy * dy > 0;
    dx * dx + dy * dy
  }

  /** `distance(a, b) < radius`, compared on squares. */
  predicate Within(a: Point, b: Point, radius: nat) {
    Distance2(a, b) < radius * radius
  }

  /** Distance does not depend on the order of its arguments. */
  lemma DistanceSymmetric(a: Point, b: Point)
    ensures Distance2(a, b) == Distance2(b, a)
  {
  }

  /** `Array.prototype.findIndex`: the first index whose element satisfies `p`, or -1. */
  function FindIndex<T>(s: seq<T>, p: T -> bool): (r: int)
    ensures -1 <= r < |s|
    ensures r == -1 ==> forall k :: 0 <= k < |s| ==> !p(s[k])
    ensures r >= 0 ==> p(s[r]) && forall k :: 0 <= k < r ==> !p(s[k])
  {
    if |s| == 0 then -1
    else if p(s[0]) then 0
    else
      var rest := FindIndex(s[1..], p);
      assert forall k :: 1 <= k < |s| ==> s[k] == s[1..][k - 1];
      if rest == -1 then -1 else rest + 1
  }

  /** The outcome of a search whose callback may throw (it reads a property of `undefined`). */
  datatype SearchResult = Hit(index: nat) | Miss | Threw(at: nat)

  /** `findIndex`/`find` with a callback that answers `Some(b)` or throws (`None`):
      the search stops at the first hit or at the first throw. */
  function Search<T>(s: seq<T>, test: T -> Option<bool>): (r: SearchResult)
    ensures r.Hit? ==> r.index < |s| && test(s[r.index]) == Some(true)
                       && forall k :: 0 <= k < r.index ==> test(s[k]) == Some(false)
    ensures r.Miss? ==> forall k :: 0 <= k < |s| ==> test(s[k]) == Some(false)
    ensures r.Threw? ==> r.at < |s| && test(s[r.at]).None?
                         && forall k :: 0 <= k < r.at ==> test(s[k]) == Some(false)
  {
    if |s| == 0 then Miss
    else match test(s[0])
      case None => Threw(0)
      case Some(true) => Hit(0)
      case Some(false) =>
        var rest := Search(s[1..], test);
        assert forall k :: 1 <= k < |s| ==> s[k] == s[1..][k - 1];
        match rest
        case Hit(i) => Hit(i + 1)
        case Miss => Miss
        case Threw(i) => Threw(i + 1)
  }
}
